=== FILE: README.md ===
# Elasticsearch ingestion and learning-to-rank query construction, in Dafny

This project models the core of a Go playground for Elasticsearch. The core
has two halves.

**Ingestion.**
- `BulkInsert` is a fail-fast loop over one bulk indexer. It creates the
  indexer, then marshals and adds each document in order, stops at the first
  error, and closes the indexer only when every document was added.
- Its concurrent variants are:
  - `BulkInsertConcurrent`: one unit of work per chunk of `chunkSize`
    documents, collected through a capacity-1 error channel (the first error
    wins).
  - `BulkInsertConcurrentV2`: one shared indexer fed by a worker pool. It
    discards every per-document error.
  - `BulkInsertConcurrentV3`: the plain fail-fast loop.
- `SingleInsert` writes one document per index call, with the ID
  `decimal(i + 1)`. The bulk variant in the same program gives its items the
  same IDs.

**Query construction.**
- Typed query helpers build `types.Query` values.
- Three learning-to-rank builders put a `"rescore"` entry next to a base
  query. Each rescore holds an `sltr` query with a model and parameters:
  - `LTRQueryBuilder` uses a hand-built map;
  - `SimpleLTRQueryBuilder` uses typed structs, whose setters can panic on nil
    pointers and nil maps;
  - `StringLTRQueryBuilder` uses a string template.
- The search program has its own `buildJsonQuery` template. Its
  `CustomSearchRequest.MarshalJSON` merges a rescore into the marshalled
  request.

Everything the program asks of the outside world is a parameter:
- `Indexer.Session` answers for the bulk indexer: create, `json.Marshal` of
  each document, `Add` at each position, and `Close`.
- `BulkVsSingle.Store` answers for the typed index call. The single-insert
  loop is modelled over the requests its body builds, one per document
  (`BulkVsSingle.Requests`).
- For the builders, `encode` is `json.Marshal` of a `search.Request`, read
  back as a map.
- For the concurrent variants, the scheduler's choices are parameters too:
  the order in which chunk units finish, and which worker takes each
  document.

Each operation returns a log of the calls it made and its error, so fail-fast
behaviour, ordering and "nothing else is attempted" can be stated.

Modules:
- `Outcomes`: Option, Result, Outcome.
- `Json`: abstract JSON values, Go map assignment and merge.
- `Decimal`: `%d` formatting and parsing.
- `Chunking`: the chunk loop.
- `Indexer`: the shared fail-fast bulk loop.
- `ConcurrentBulkInsert`.
- `BulkVsSingle`.
- `QueryDsl`: the typed helpers.
- `Rescoring`: the shared rescore structures and their JSON form.
- `LtrQueryBuilder`.
- `SimpleLtrQueryBuilder`.
- `Search`: the template and `CustomSearchRequest`.
- `StringLtrQueryBuilder`.

Behaviours of the code that the model reproduces:
- The chunk size is never validated. On a non-empty batch a size of 0 loops
  forever and a negative size panics on slicing (`Chunking.ChunkEnd`). So
  `LoopDefined` is a precondition here, not an error result.
- The failure paths of `BulkInsert` return without calling `Close`.
- In `BulkInsertConcurrent` the document ordinal in an error is the one the
  failing chunk's `BulkInsert` wrote: it counts from the start of that chunk.
- `BulkInsertConcurrentV2` drops every marshal and `Add` error. It returns
  the create error when the indexer cannot be created, and otherwise the
  result of `Close`.
- With `numWorkers <= 0`, `BulkInsertConcurrentV2` adds nothing but still
  closes the indexer and returns its result. Its producer goroutine stays
  blocked.

## Model

| member | source | states |
|---|---|---|
| Json.Put | search-using-ltr/search.go:117-119 | setting a key on a non-nil map binds it to the value and leaves every other entry as it was |
| Json.Merge | search-using-ltr/ltr_query_builder.go:39-44 | copying one map into another: keys are the union, the copied map's keys take its values, all other keys keep theirs |
| Json.MergeLoop | search-using-ltr/ltr_query_builder.go:40-42 | the range loop of assignments, in any key order, ends with exactly the merged map |
| Json.MergeEmpty | search-using-ltr/ltr_query_builder.go:39-44 | copying an empty map changes nothing |
| Json.MergeIdempotent | search-using-ltr/ltr_query_builder.go:39-44 | copying the same map twice is the same as copying it once |
| Json.MergeSequential | search-using-ltr/ltr_query_builder.go:39-44 | two successive copies equal one copy of the combined map, the later winning |
| Decimal.Format | bulk-insert-vs-single-insert/insert.go:75 | `%d` of a natural is a non-empty digit string without a leading zero, except for 0 |
| Decimal.ParseFormat | bulk-insert-vs-single-insert/insert.go:75 | reading back a formatted natural gives the natural |
| Decimal.FormatInjective | bulk-insert-vs-single-insert/insert.go:75 | two naturals format alike if and only if they are equal |
| Decimal.DocumentId | bulk-insert-vs-single-insert/insert.go:105 | the ID of position i is a digit string denoting i + 1, with no leading zero |
| Decimal.DocumentIdsDistinct | bulk-insert-vs-single-insert/insert.go:105 | two positions share an ID if and only if they are the same position |
| Chunking.ChunkEnd | concurrent-bulk-insert/insert.go:87-90 | end is min(i + size, N); it lies after the start for a positive size, equals it for 0, and falls before it for a negative size |
| Chunking.Chunks | concurrent-bulk-insert/insert.go:86-91 | no chunks exactly for an empty batch; every chunk is non-empty and at most size long; all but the last are exactly size long |
| Chunking.ChunksFlatten | concurrent-bulk-insert/insert.go:86-91 | the chunks concatenated in order are the batch: every document is in exactly one chunk, in order |
| Chunking.ChunksCount | concurrent-bulk-insert/insert.go:86 | the number of chunks is ceil(N / size): (count - 1) * size < N <= count * size |
| Chunking.ChunkAt | concurrent-bulk-insert/insert.go:86-91 | chunk k is docs[k*size : min(k*size + size, N)] and starts inside the batch |
| Chunking.ChunkLoop | concurrent-bulk-insert/insert.go:64-69 | the imperative loop yields exactly the chunks, and they flatten back to the batch |
| Indexer.ItemFor | bulk-insert-vs-single-insert/insert.go:100-108 | every item is an "index" action carrying the marshalled body; only the identified flavor sets the index and the decimal ID of position i |
| Indexer.AddFrom | concurrent-bulk-insert/insert.go:41-56 | the loop makes at most one call per remaining document, and exactly one per document when it returns nil |
| Indexer.AddFromErrorOrdinal | concurrent-bulk-insert/insert.go:41-56 | a loop failure is a marshal or Add error; a marshal error names the document after the last call, an Add error the document of the last call, counted from 1 (no ordinal in the unnumbered copy) |
| Indexer.AddFromSucceedsIff | concurrent-bulk-insert/insert.go:41-56 | the loop succeeds if and only if every remaining document marshals and is accepted; then it made exactly one Add per document, in order |
| Indexer.AddFromFailFast | concurrent-bulk-insert/insert.go:41-56 | at the first rejected document k the loop returns k's error, has added exactly the documents before k (plus k if it marshalled) and nothing after |
| Indexer.AddFromLog | concurrent-bulk-insert/insert.go:41-56 | the loop's calls are Adds at consecutive positions, never a Close |
| Indexer.AddedCallShape | bulk-insert-vs-single-insert/insert.go:95-112 | the j-th call adds the item built from the marshalled body of document j |
| Indexer.BulkInsert | concurrent-bulk-insert/insert.go:31-61 | nil only after creation, one Add per document and a final Close; an error is one of the four kinds; a create error makes no call; a close error comes after every Add; a per-document error carries the ordinal of the document where the calls stop; the same loop serves the copy in bulk-insert-vs-single-insert/insert.go (items with index and ID) and V3 (no ordinal) |
| Indexer.BulkInsertSucceedsIff | concurrent-bulk-insert/insert.go:31-61 | nil is returned if and only if creation, every document and Close succeed |
| Indexer.BulkInsertClosesOnlyAfterAll | concurrent-bulk-insert/insert.go:41-60 | Close is called if and only if creation succeeded and all documents were added; then the calls are the N Adds in order followed by one Close |
| Indexer.BulkInsertFailFast | concurrent-bulk-insert/insert.go:41-59 | the first rejected document's error is returned with ordinal k + 1; no later document is attempted and Close is not called |
| Indexer.BulkInsertEmpty | concurrent-bulk-insert/insert.go:31-61 | an empty batch only creates and closes; it succeeds if and only if both do |
| ConcurrentBulkInsert.FirstErrorWins | concurrent-bulk-insert/insert.go:96-100 | a full channel slot never changes; the slot stays empty if and only if every unit passed |
| ConcurrentBulkInsert.FirstErrorWinsIsFirst | concurrent-bulk-insert/insert.go:96-108 | an empty slot ends up holding the error of the first failing unit in completion order |
| ConcurrentBulkInsert.BulkInsertConcurrent | concurrent-bulk-insert/insert.go:82-113 | one unit per chunk; nil only when every unit in the completion order returned nil; an error wraps the result of some unit in that order |
| ConcurrentBulkInsert.ConcurrentSucceedsIff | concurrent-bulk-insert/insert.go:82-113 | one BulkInsert unit per chunk; nil is returned if and only if every unit returned nil, in any completion order |
| ConcurrentBulkInsert.ConcurrentFirstObservedWins | concurrent-bulk-insert/insert.go:96-110 | the error returned wraps the error of the first failing unit to finish |
| ConcurrentBulkInsert.ConcurrentErrorIsAChunkError | concurrent-bulk-insert/insert.go:96-110 | a returned error is always, once wrapped, the error of some chunk |
| ConcurrentBulkInsert.ConcurrentSingleFailure | concurrent-bulk-insert/insert.go:82-113 | when exactly one chunk fails, every completion order returns its error |
| ConcurrentBulkInsert.ConcurrentEmpty | concurrent-bulk-insert/insert.go:82-113 | an empty batch launches no unit and returns nil for any chunk size |
| ConcurrentBulkInsert.ChunkErrorOrdinalInRange | concurrent-bulk-insert/insert.go:41-56 | a per-document error of a chunk's loop carries a 1-based ordinal that lies within the batch the loop was given |
| ConcurrentBulkInsert.ConcurrentOrdinalIsChunkRelative | concurrent-bulk-insert/insert.go:86-110 | the wrapped error is one of BulkInsert's four kinds, and its document ordinal is between 1 and chunkSize |
| ConcurrentBulkInsert.ConcurrentCoverage | concurrent-bulk-insert/insert.go:82-113 | on success each unit added every document of its chunk once, in order, then closed; the chunks in order are the batch |
| ConcurrentBulkInsert.Handle | concurrent-bulk-insert/insert.go:144-160 | a worker adds a document exactly when it marshals, as an "index" item with that body and no index or ID; a marshal error skips the document |
| ConcurrentBulkInsert.BulkInsertConcurrentV2 | concurrent-bulk-insert/insert.go:117-174 | Close runs exactly when creation succeeded; nil if and only if creation and Close succeed; with no workers or a failed creation nothing is handled, otherwise every document is handled once, in queue order |
| ConcurrentBulkInsert.V2PoolIsWorkerSteps | concurrent-bulk-insert/insert.go:140-162 | with workers and an indexer, the record of document j is one worker step on it, and the documents offered to Add are exactly those that marshal |
| ConcurrentBulkInsert.V2IgnoresDocumentErrors | concurrent-bulk-insert/insert.go:140-169 | the result is the same for any documents, marshal and Add behaviour, worker count and assignment, given the same create and close outcomes |
| ConcurrentBulkInsert.V2HandlesEachDocumentOnce | concurrent-bulk-insert/insert.go:129-162 | with workers, every document is taken once by a valid worker in queue order and added exactly when it marshals; with none, nothing is handled |
| ConcurrentBulkInsert.V3AddFrom | concurrent-bulk-insert/insert.go:188-203 | the V3 loop makes the same calls as the numbered loop, with the same errors minus their ordinals |
| ConcurrentBulkInsert.V3IsBulkInsertWithoutOrdinals | concurrent-bulk-insert/insert.go:178-210 | V3 makes exactly BulkInsert's calls and fails exactly when it does, with the same error except for the missing ordinal |
| BulkVsSingle.SingleInsertFromRequests | bulk-insert-vs-single-insert/insert.go:73-77 | from position i, the j-th request sent is the one built for position i + j; no more requests than positions left |
| BulkVsSingle.SingleInsertFrom | bulk-insert-vs-single-insert/insert.go:73-81 | the loop sends at most one request per remaining position |
| BulkVsSingle.SingleInsertFromErrorOrdinal | bulk-insert-vs-single-insert/insert.go:78-80 | a failure is an insert error naming, from 1, the position of the last request sent |
| BulkVsSingle.SingleInsertFromSucceedsIff | bulk-insert-vs-single-insert/insert.go:72-83 | the loop succeeds if and only if every remaining write is accepted, and then it sent one request per remaining position |
| BulkVsSingle.SingleInsertFromFailFast | bulk-insert-vs-single-insert/insert.go:73-81 | the first failed write at k returns an error with ordinal k + 1 after exactly the requests up to k |
| BulkVsSingle.SingleInsert | bulk-insert-vs-single-insert/insert.go:72-83 | the j-th request writes document j under ID decimal(j + 1); nil only after one request per document; an error names the last request's document, counted from 1 |
| BulkVsSingle.SingleInsertRequests | bulk-insert-vs-single-insert/insert.go:73-77 | document j goes to the index under ID decimal(j + 1), and the IDs are pairwise distinct |
| BulkVsSingle.SingleInsertSucceedsIff | bulk-insert-vs-single-insert/insert.go:72-83 | nil if and only if every write succeeded, having written every document |
| BulkVsSingle.SingleInsertFailFast | bulk-insert-vs-single-insert/insert.go:78-80 | an error at k is returned with ordinal k + 1 after exactly k + 1 requests, the j-th writing document j; no document after k is sent |
| BulkVsSingle.SingleInsertEmpty | bulk-insert-vs-single-insert/insert.go:72-83 | an empty batch sends nothing and returns nil |
| BulkVsSingle.BulkItemsMatchSingleIds | bulk-insert-vs-single-insert/insert.go:100-108 | every bulk Add targets the index with action "index", the marshalled body of its document, and the same ID the single-insert request uses for that document |
| QueryDsl.MatchAll | search-using-ltr/search_type_safe_helper.go:22 | a query of the match-all kind only |
| QueryDsl.CreateMatchQuery | search-using-ltr/search_type_safe_helper.go:10-16 | a query of the match kind only, on exactly the given field with the given value |
| QueryDsl.CreateBoolWithFilterQuery | search-using-ltr/search_type_safe_helper.go:19-26 | a bool query whose must is one match-all, whose filters are the arguments in order, and whose should is empty |
| QueryDsl.CreateMultiMatchQuery | search-using-ltr/search_type_safe_helper.go:29-36 | a multi-match query only, with the text and the fields in order |
| QueryDsl.CreateComplexBoolQuery | search-using-ltr/search_type_safe_helper.go:39-48 | a bool query only, carrying its four parts unchanged |
| QueryDsl.BoolWithFilterIsComplexBool | search-using-ltr/search_type_safe_helper.go:19-48 | the filter helper is the complex helper with one match-all in must and nothing in should |
| Rescoring.EncodeRescore | search-using-ltr/search.go:87-99 | the JSON form has exactly "window_size" and "query"; "query" holds exactly "rescore_query", which is null for a nil map and otherwise has the same keys, each reading back as its SLTR |
| Rescoring.DecodeEncodeSltr | search-using-ltr/search.go:87-90 | the JSON form of an SLTR reads back as the same SLTR, nil params included |
| Rescoring.DecodeEncodeRescore | search-using-ltr/search.go:92-99 | the JSON form of a rescore reads back as the same rescore, nil maps included |
| Rescoring.Overlay | search-using-ltr/search.go:106-122 | fails exactly when the base fails; otherwise the base object, with "rescore" set when there is one and every other key unchanged |
| LtrQueryBuilder.NewLTRQueryBuilder | search-using-ltr/ltr_query_builder.go:23-32 | window 1000, the given model and empty non-nil params |
| LtrQueryBuilder.WithWindowSize | search-using-ltr/ltr_query_builder.go:34-37 | sets the window size and nothing else |
| LtrQueryBuilder.WithParams | search-using-ltr/ltr_query_builder.go:39-44 | the given params are copied over the configured ones and nothing else changes |
| LtrQueryBuilder.RescoreJson | search-using-ltr/ltr_query_builder.go:59-69 | the hand-built map is the JSON form of the shared Rescore structure with the configured window and a single "sltr" entry with the configured params and model |
| LtrQueryBuilder.RescoreJsonDecodes | search-using-ltr/ltr_query_builder.go:59-69 | the hand-built map reads back as the configured window, params and model |
| LtrQueryBuilder.Build | search-using-ltr/ltr_query_builder.go:46-72 | fails exactly when the base marshal fails; otherwise exactly the base keys plus "rescore", which equals the struct encoding of the configured window, params and model and reads back as them; other keys unchanged |
| LtrQueryBuilder.WithParamsEmpty | search-using-ltr/ltr_query_builder.go:39-44 | an empty params map leaves the builder as it was |
| LtrQueryBuilder.WithParamsIdempotent | search-using-ltr/ltr_query_builder.go:39-44 | the same params twice equal the same params once |
| LtrQueryBuilder.WithParamsSequential | search-using-ltr/ltr_query_builder.go:39-44 | two calls equal one call with the merged params, the later winning |
| LtrQueryBuilder.SettersCommute | search-using-ltr/ltr_query_builder.go:34-44 | the two setters commute, and of two window sizes the last wins |
| SimpleLtrQueryBuilder.NewSimpleLTRQueryBuilder | search-using-ltr/simple_ltr_query_builder.go:53-69 | window 1000 and a single "sltr" entry with empty params and the model |
| SimpleLtrQueryBuilder.WithWindowSize | search-using-ltr/simple_ltr_query_builder.go:71-74 | panics exactly on a nil rescore pointer; otherwise changes only the window size |
| SimpleLtrQueryBuilder.WithParams | search-using-ltr/simple_ltr_query_builder.go:76-86 | nil pointer and nil map panic; otherwise "sltr" keeps its model, nil params become a map, the given params are merged in, and other entries are kept |
| SimpleLtrQueryBuilder.Build | search-using-ltr/simple_ltr_query_builder.go:32-51 | fails exactly when the base marshal fails; with a rescore, exactly the base keys plus "rescore", which equals the struct encoding of that rescore and reads back as it; without one, the base object unchanged |
| SimpleLtrQueryBuilder.WithParamsEmpty | search-using-ltr/simple_ltr_query_builder.go:76-86 | with non-nil params, an empty merge leaves the builder as it was |
| SimpleLtrQueryBuilder.WithParamsMaterializesNilParams | search-using-ltr/simple_ltr_query_builder.go:77-80 | with nil params, even an empty merge changes the builder: the params become an empty map |
| SimpleLtrQueryBuilder.WithParamsIdempotent | search-using-ltr/simple_ltr_query_builder.go:76-86 | when the first call succeeds, repeating the same params changes nothing more |
| SimpleLtrQueryBuilder.SettersKeepSingleSltr | search-using-ltr/simple_ltr_query_builder.go:53-86 | from the constructor, both setters succeed and leave one "sltr" entry with the model, the given params and the given window |
| Search.BuildJsonQuery | search-using-ltr/search.go:36-56 | the text is exactly as long as the fixed pieces plus the keyword and the model; its content is pinned by Search.SplitBuildJsonQuery and Search.TemplateFixesWindowAndParams |
| Search.SplitBuildJsonQuery | search-using-ltr/search.go:36-56 | when the keyword holds no quote, the keyword and the model can be read back from the text |
| Search.HolesAreUnescaped | search-using-ltr/search.go:41-50 | a keyword containing the middle piece yields the same text as a different keyword and model pair |
| Search.TemplateFixesWindowAndParams | search-using-ltr/search.go:44-49 | whatever the inputs, the text between the holes fixes window size 1000 and empty params |
| Search.NewCustomSearchRequest | search-using-ltr/search.go:124-162 | the request holds a bool query with one match-all in must and a match on "title" for the keyword as its filter; the rescore part is window 1000 with one "sltr" entry with empty params and the model |
| Search.MarshalJSON | search-using-ltr/search.go:106-122 | a nil request panics with a rescore and gives null without one; otherwise, with a rescore, exactly the base keys plus "rescore", equal to the struct encoding of the rescore part; without one, the base object unchanged |
| Search.MarshalJSONMatchesSimpleBuilder | search-using-ltr/search.go:106-122 | with a request present, MarshalJSON and the simple builder's Build give the same output |
| Search.NewCustomSearchRequestMatchesSimpleBuilder | search-using-ltr/search.go:124-162 | the custom request for a keyword marshals exactly as the simple builder over the helpers' query for that keyword |
| StringLtrQueryBuilder.NewStringLTRQueryBuilder | search-using-ltr/string_ltr_query_builder.go:10-15 | keeps the keyword and the model unchanged |
| StringLtrQueryBuilder.TextIsSearchTemplate | search-using-ltr/string_ltr_query_builder.go:19-37 | the builder's own template, filled in, is character for character the search program's template for every keyword and model |
| StringLtrQueryBuilder.Build | search-using-ltr/string_ltr_query_builder.go:18-39 | never fails; the inputs read back when the keyword holds no quote; window 1000 and empty params are fixed in the text |
| StringLtrQueryBuilder.BuildIsSearchTemplate | search-using-ltr/string_ltr_query_builder.go:18-39 | the builder writes the same text as the search program's template for the same inputs |

## Left out

- Goroutines, `sync.WaitGroup` and channels are not modelled as such. The scheduler's choices (completion order, worker assignment) are parameters, and results are stated for every choice.
- `BulkInsertConcurrentWithTimeSleep` returns nothing and ignores every error; only its chunk loop is modelled (`Chunking.ChunkLoop`). The sleep and the detached goroutines are left out.
- Context cancellation and timeouts: the outcome of every external call is an input.
- `esutil.BulkIndexer` internals: flushing, retries, worker goroutines and statistics are out of scope. The indexer is an oracle that answers `Add` per position and `Close` with a fixed outcome. That outcome does not depend on what was added.
- `json.Marshal` and `json.Unmarshal` byte encoding: documents marshal through an oracle, and request JSON is an abstract `Json` value. Key order, whitespace and number formatting are not modelled.
- `NewClient`, `CreateIndex`, `Search` and `main.go` perform network I/O and are out of scope; so are the tests.
- The `QueryBuilder` interface in `query_builder.go` declares only a method signature.
- Go pointer aliasing: the builders' setters mutate through pointers. Here they return the updated builder, so the sharing of a `Rescore` between copies of a builder is not modelled.
- The builders return bytes; here `Build` returns a JSON value, or a string for the string template. The UTF-8 encoding is not modelled.
- ConcurrentBulkInsert.BulkInsertConcurrent: requires a positive chunk size for a non-empty batch. With size 0 the source never terminates, and with a negative size it panics on slicing; `Chunking.ChunkEnd` states both behaviours.
- LtrQueryBuilder.Build, SimpleLtrQueryBuilder.Build, Search.MarshalJSON, Rescoring.Overlay: the params hold JSON values only (no NaN, channels or functions), so the error the final `json.Marshal` can return is not modelled; these members fail only when marshalling the base request fails.
- ConcurrentBulkInsert.BulkInsertConcurrentV2: when there are no workers and the batch is non-empty, the producer goroutine blocks forever. The model records only that nothing is added and that the indexer is still closed.

=== FILE: bulk_vs_single.dfy ===
/** The bulk-versus-single ingestion program: `SingleInsert` writes one
    document per index call with the ID `decimal(i + 1)`; its `BulkInsert` is
    `Indexer.BulkInsert` with the `Identified` flavor, whose items carry the
    same IDs. */
module BulkVsSingle {
  import opened Outcomes
  import opened Indexer
  import Decimal

  /** One typed `Index(index).Id(id).Request(doc)` call. */
  datatype IndexRequest = IndexRequest(index: string, id: string, doc: Doc)

  /** The typed client's answer to the index call made for 0-based position
      `i`. */
  datatype Store = Store(put: (nat, IndexRequest) -> Outcome<Cause>)

  /** The requests sent, in order, and the returned error. */
  datatype SingleRun = SingleRun(requests: seq<IndexRequest>, result: Outcome<Error>)

  function RequestFor(index: string, docs: seq<Doc>, i: nat): IndexRequest
    requires i < |docs|
  {
    IndexRequest(index, Decimal.DocumentId(i), docs[i])
  }

  /** The request the loop body builds for each position, in order. */
  function Requests(index: string, docs: seq<Doc>): (reqs: seq<IndexRequest>)
    ensures |reqs| == |docs|
    ensures forall j :: 0 <= j < |docs| ==> reqs[j] == RequestFor(index, docs, j)
  {
    seq(|docs|, j requires 0 <= j < |docs| => RequestFor(index, docs, j))
  }

  /** The loop from position `i` on, sending the requests `reqs[i..]` one at
      a time: at most one request per remaining position. */
  function SingleInsertFrom(store: Store, reqs: seq<IndexRequest>, i: nat): (r: SingleRun)
    requires i <= |reqs|
    ensures |r.requests| <= |reqs| - i
    decreases |reqs| - i
  {
    if i == |reqs| then SingleRun([], Pass)
    else
      match store.put(i, reqs[i])
      case Fail(c) => SingleRun([reqs[i]], Fail(InsertFailed(i + 1, c)))
      case Pass =>
        var rest := SingleInsertFrom(store, reqs, i + 1);
        SingleRun([reqs[i]] + rest.requests, rest.result)
  }

  /** The whole call: request `j` writes document `j` under ID
      `decimal(j + 1)`; on success there is one request per document, and on
      failure the error's ordinal is the number of requests sent, the failed
      one last. */
  function SingleInsert(store: Store, index: string, docs: seq<Doc>): (r: SingleRun)
    ensures |r.requests| <= |docs|
    ensures forall j :: 0 <= j < |r.requests| ==> r.requests[j] == RequestFor(index, docs, j)
    ensures r.result.Pass? ==> |r.requests| == |docs|
    ensures r.result.Fail? ==>
      r.result.error.InsertFailed? && 1 <= r.result.error.document == |r.requests| <= |docs|
  {
    var reqs := Requests(index, docs);
    SingleInsertFromRequests(store, reqs, 0);
    SingleInsertFromSucceedsIff(store, reqs, 0);
    SingleInsertFromErrorOrdinal(store, reqs, 0);
    SingleInsertFrom(store, reqs, 0)
  }

  /** The typed client accepts the write of document `i`. */
  predicate Stored(store: Store, index: string, docs: seq<Doc>, i: nat)
    requires i < |docs|
  {
    store.put(i, RequestFor(index, docs, i)).Pass?
  }

  /** The typed client accepts the `i`-th prepared request. */
  predicate Accepted(store: Store, reqs: seq<IndexRequest>, i: nat)
    requires i < |reqs|
  {
    store.put(i, reqs[i]).Pass?
  }

  /** The loop's prepared request at `j` is accepted exactly when the write of
      document `j` is. */
  lemma AcceptedIsStored(store: Store, index: string, docs: seq<Doc>)
    ensures forall j :: 0 <= j < |docs| ==>
      Accepted(store, Requests(index, docs), j) == Stored(store, index, docs, j)
  {
  }

  /** One step of the loop at position `i`: a refused write ends it after its
      one request; an accepted one is followed by the rest of the loop. */
  lemma SingleInsertFromStep(store: Store, reqs: seq<IndexRequest>, i: nat)
    requires i < |reqs|
    ensures !Accepted(store, reqs, i) ==>
      && SingleInsertFrom(store, reqs, i).requests == [reqs[i]]
      && SingleInsertFrom(store, reqs, i).result == Fail(InsertFailed(i + 1, store.put(i, reqs[i]).error))
    ensures Accepted(store, reqs, i) ==>
      && SingleInsertFrom(store, reqs, i).requests == [reqs[i]] + SingleInsertFrom(store, reqs, i + 1).requests
      && SingleInsertFrom(store, reqs, i).result == SingleInsertFrom(store, reqs, i + 1).result
  {
  }

  /** The `j`-th request sent is the prepared request at `i + j`; no more
      requests are sent than there are positions left. */
  lemma {:induction false} SingleInsertFromRequests(store: Store, reqs: seq<IndexRequest>, i: nat)
    requires i <= |reqs|
    ensures |SingleInsertFrom(store, reqs, i).requests| <= |reqs| - i
    ensures forall j :: 0 <= j < |SingleInsertFrom(store, reqs, i).requests| ==>
      SingleInsertFrom(store, reqs, i).requests[j] == reqs[i + j]
    decreases |reqs| - i
  {
    if i < |reqs| {
      var sent := SingleInsertFrom(store, reqs, i).requests;
      SingleInsertFromStep(store, reqs, i);
      if Accepted(store, reqs, i) {
        var rest := SingleInsertFrom(store, reqs, i + 1).requests;
        SingleInsertFromRequests(store, reqs, i + 1);
        forall j | 0 <= j < |sent|
          ensures sent[j] == reqs[i + j]
        {
          if j > 0 {
            assert sent[j] == rest[j - 1];
          }
        }
      }
    }
  }

  /** Succeeds exactly when every write does; it then sends one request per
      remaining position. */
  lemma SingleInsertFromSucceedsIff(store: Store, reqs: seq<IndexRequest>, i: nat)
    requires i <= |reqs|
    ensures SingleInsertFrom(store, reqs, i).result.Pass?
        <==> forall j :: i <= j < |reqs| ==> Accepted(store, reqs, j)
    ensures SingleInsertFrom(store, reqs, i).result.Pass? ==>
      |SingleInsertFrom(store, reqs, i).requests| == |reqs| - i
  {
    if forall j :: i <= j < |reqs| ==> Accepted(store, reqs, j) {
      SingleInsertFromAllAccepted(store, reqs, i);
    }
    if SingleInsertFrom(store, reqs, i).result.Pass? {
      SingleInsertFromPassAccepted(store, reqs, i);
    }
  }

  /** When every remaining write is accepted, the loop returns nil after one
      request per remaining position. */
  lemma {:induction false} SingleInsertFromAllAccepted(store: Store, reqs: seq<IndexRequest>, i: nat)
    requires i <= |reqs|
    requires forall j :: i <= j < |reqs| ==> Accepted(store, reqs, j)
    ensures SingleInsertFrom(store, reqs, i).result.Pass?
    ensures |SingleInsertFrom(store, reqs, i).requests| == |reqs| - i
    decreases |reqs| - i
  {
    if i < |reqs| {
      assert Accepted(store, reqs, i);
      SingleInsertFromStep(store, reqs, i);
      SingleInsertFromAllAccepted(store, reqs, i + 1);
    }
  }

  /** When the loop returns nil, every remaining write was accepted. */
  lemma {:induction false} SingleInsertFromPassAccepted(store: Store, reqs: seq<IndexRequest>, i: nat)
    requires i <= |reqs|
    requires SingleInsertFrom(store, reqs, i).result.Pass?
    ensures forall j :: i <= j < |reqs| ==> Accepted(store, reqs, j)
    decreases |reqs| - i
  {
    if i < |reqs| {
      SingleInsertFromStep(store, reqs, i);
      SingleInsertFromPassAccepted(store, reqs, i + 1);
    }
  }

  /** A failure is an insert failure whose ordinal counts the requests sent
      from the start of the batch: the failed request is the last one. */
  lemma {:induction false} SingleInsertFromErrorOrdinal(store: Store, reqs: seq<IndexRequest>, i: nat)
    requires i <= |reqs|
    ensures var r := SingleInsertFrom(store, reqs, i);
      r.result.Fail? ==>
        0 < |r.requests| && r.result.error.InsertFailed? && r.result.error.document == i + |r.requests|
    decreases |reqs| - i
  {
    if i < |reqs| {
      SingleInsertFromStep(store, reqs, i);
      if Accepted(store, reqs, i) {
        SingleInsertFromErrorOrdinal(store, reqs, i + 1);
      }
    }
  }

  /** Fail-fast from position `i`: the first failed write at `k` ends the loop
      with an error carrying ordinal `k + 1`, after exactly `k - i + 1`
      requests. */
  lemma {:induction false} SingleInsertFromFailFast(store: Store, reqs: seq<IndexRequest>, i: nat, k: nat)
    requires i <= k < |reqs|
    requires forall j :: i <= j < k ==> Accepted(store, reqs, j)
    requires !Accepted(store, reqs, k)
    ensures SingleInsertFrom(store, reqs, i).result == Fail(InsertFailed(k + 1, store.put(k, reqs[k]).error))
    ensures |SingleInsertFrom(store, reqs, i).requests| == k - i + 1
    decreases k - i
  {
    SingleInsertFromStep(store, reqs, i);
    if i < k {
      assert Accepted(store, reqs, i);
      SingleInsertFromFailFast(store, reqs, i + 1, k);
    }
  }

  /** `SingleInsert` writes the document at position `j` with ID
      `decimal(j + 1)`, and these IDs are pairwise distinct. */
  lemma SingleInsertRequests(store: Store, index: string, docs: seq<Doc>)
    ensures var reqs := SingleInsert(store, index, docs).requests;
      && |reqs| <= |docs|
      && (forall j :: 0 <= j < |reqs| ==>
            reqs[j].index == index && reqs[j].doc == docs[j] && reqs[j].id == Decimal.Format(j + 1))
      && (forall a, b :: 0 <= a < |reqs| && 0 <= b < |reqs| && a != b ==> reqs[a].id != reqs[b].id)
  {
    var reqs := SingleInsert(store, index, docs).requests;
    forall a, b | 0 <= a < |reqs| && 0 <= b < |reqs| && a != b
      ensures reqs[a].id != reqs[b].id
    {
      Decimal.DocumentIdsDistinct(a, b);
    }
  }

  /** `SingleInsert` returns nil exactly when every write succeeded, having
      written every document. */
  lemma SingleInsertSucceedsIff(store: Store, index: string, docs: seq<Doc>)
    ensures SingleInsert(store, index, docs).result.Pass?
        <==> forall j :: 0 <= j < |docs| ==> Stored(store, index, docs, j)
    ensures SingleInsert(store, index, docs).result.Pass? ==>
      |SingleInsert(store, index, docs).requests| == |docs|
  {
    var reqs := Requests(index, docs);
    SingleInsertFromSucceedsIff(store, reqs, 0);
    AcceptedIsStored(store, index, docs);
  }

  /** On an error at position `k` the call returns an error carrying `k + 1`,
      and documents after `k` are never attempted. */
  lemma SingleInsertFailFast(store: Store, index: string, docs: seq<Doc>, k: nat)
    requires k < |docs|
    requires forall j :: 0 <= j < k ==> Stored(store, index, docs, j)
    requires !Stored(store, index, docs, k)
    ensures SingleInsert(store, index, docs).result.Fail?
    ensures SingleInsert(store, index, docs).result.error.InsertFailed?
    ensures SingleInsert(store, index, docs).result.error.document == k + 1
    ensures |SingleInsert(store, index, docs).requests| == k + 1
    ensures forall j :: 0 <= j <= k ==> SingleInsert(store, index, docs).requests[j] == RequestFor(index, docs, j)
  {
    var reqs := Requests(index, docs);
    AcceptedIsStored(store, index, docs);
    SingleInsertFromFailFast(store, reqs, 0, k);
  }

  /** An empty batch writes nothing and returns nil. */
  lemma SingleInsertEmpty(store: Store, index: string)
    ensures SingleInsert(store, index, []).requests == []
    ensures SingleInsert(store, index, []).result == Pass
  {
  }

  /** Each item the bulk variant adds targets `index` with action `"index"`
      and ID `decimal(j + 1)` for position `j`: the same ID-to-document
      mapping as the request `SingleInsert` sends for that document. */
  lemma BulkItemsMatchSingleIds(s: Session, index: string, docs: seq<Doc>)
    ensures forall c :: c in BulkInsert(s, Identified(index), docs).log && c.Added? ==>
      && c.pos < |docs|
      && c.item.index == Some(index)
      && c.item.action == "index"
      && c.item.documentId == Some(RequestFor(index, docs, c.pos).id)
      && s.marshal(docs[c.pos]) == Success(c.item.body)
  {
    AddFromLog(s, Identified(index), docs, 0);
    var log := BulkInsert(s, Identified(index), docs).log;
    var adds := AddFrom(s, Identified(index), docs, 0);
    forall c | c in log && c.Added?
      ensures c.pos < |docs|
      ensures c.item.index == Some(index)
      ensures c.item.action == "index"
      ensures c.item.documentId == Some(RequestFor(index, docs, c.pos).id)
      ensures s.marshal(docs[c.pos]) == Success(c.item.body)
    {
      var j :| 0 <= j < |log| && log[j] == c;
      assert j < |adds.log|;
      AddedCallShape(s, Identified(index), docs, 0, j);
    }
  }
}

=== FILE: chunking.dfy ===
/** The chunk loop of `BulkInsertConcurrent` and
    `BulkInsertConcurrentWithTimeSleep`:
    `for i := 0; i < len(docs); i += chunkSize { end := min(i+chunkSize, len(docs)); docs[i:end] }`. */
module Chunking {

  function Min(a: int, b: int): int {
    if a <= b then a else b
  }

  /** The `end` of one chunk as the loop computes it. For a positive size and a
      start inside the batch it lies strictly after the start and at most one
      size further. A zero size gives an empty chunk and `i += chunkSize` never
      advances, so the loop does not end; a negative size puts `end` before the
      start, and slicing `docs[i:end]` panics. */
  function ChunkEnd(i: int, size: int, n: int): (end: int)
    ensures end <= n && end <= i + size
    ensures end == n || end == i + size
    ensures 0 < size && i < n ==> i < end
    ensures size == 0 && i <= n ==> end == i
    ensures size < 0 && i <= n ==> end < i
  {
    Min(i + size, n)
  }

  /** The source's own demand on its callers: an empty batch never enters the
      loop; otherwise only a positive size lets it terminate without a panic. */
  predicate LoopDefined(n: nat, size: int) {
    n == 0 || size > 0
  }

  /** The chunks in loop order: `docs[0:S]`, `docs[S:2S]`, and so on. */
  function Chunks<T>(docs: seq<T>, size: int): (r: seq<seq<T>>)
    requires LoopDefined(|docs|, size)
    ensures |docs| == 0 <==> |r| == 0
    ensures forall k :: 0 <= k < |r| ==> 0 < |r[k]| <= size
    ensures forall k :: 0 <= k < |r| - 1 ==> |r[k]| == size
    decreases |docs|
  {
    if |docs| == 0 then []
    else
      var end := ChunkEnd(0, size, |docs|);
      [docs[..end]] + Chunks(docs[end..], size)
  }

  /** Concatenation of a sequence of sequences. */
  function Flatten<T>(css: seq<seq<T>>): seq<T>
    decreases |css|
  {
    if |css| == 0 then [] else css[0] + Flatten(css[1..])
  }

  /** Concatenating the chunks in order gives back the batch exactly: every
      document is in exactly one chunk, and order is preserved. */
  lemma {:induction false} ChunksFlatten<T>(docs: seq<T>, size: int)
    requires LoopDefined(|docs|, size)
    ensures Flatten(Chunks(docs, size)) == docs
    decreases |docs|
  {
    if |docs| > 0 {
      var end := ChunkEnd(0, size, |docs|);
      var r := Chunks(docs, size);
      assert r[1..] == Chunks(docs[end..], size);
      ChunksFlatten(docs[end..], size);
      assert docs == docs[..end] + docs[end..];
    }
  }

  lemma {:induction false} ChunksCountStep(count: nat, n: nat, size: nat)
    requires size > 0 && n > size && count >= 1
    requires (count - 1) * size < n - size <= count * size
    ensures count * size < n <= (count + 1) * size
  {
    assert (count - 1) * size + size == count * size;
    assert count * size + size == (count + 1) * size;
  }

  /** There are `ceil(N / S)` chunks: the least count whose total capacity
      covers the batch. */
  lemma {:induction false} ChunksCount<T>(docs: seq<T>, size: int)
    requires size > 0
    ensures |docs| > 0 ==> (|Chunks(docs, size)| - 1) * size < |docs| <= |Chunks(docs, size)| * size
    decreases |docs|
  {
    var r := Chunks(docs, size);
    if |docs| > size {
      var rest := docs[size..];
      assert r == [docs[..size]] + Chunks(rest, size);
      ChunksCount(rest, size);
      ChunksCountStep(|Chunks(rest, size)|, |docs|, size);
    } else if |docs| > 0 {
      assert |r| == 1;
    }
  }

  lemma ShiftBound(k: nat, size: int, n: int)
    requires size > 0 && k > 0 && n >= size
    ensures (k - 1) * size + size == k * size
    ensures Min((k - 1) * size + size, n - size) + size == Min(k * size + size, n)
  {
    assert (k - 1) * size + size == k * size;
  }

  /** One step of the loop: the first chunk, then the chunks of the rest. */
  lemma ChunksUnfold<T>(docs: seq<T>, size: int)
    requires size > 0 && |docs| > 0
    ensures Chunks(docs, size)
         == [docs[..ChunkEnd(0, size, |docs|)]] + Chunks(docs[ChunkEnd(0, size, |docs|)..], size)
  {
  }

  lemma SliceOfSuffix<T>(docs: seq<T>, size: nat, a: nat, b: nat)
    requires size <= |docs| && a <= b <= |docs| - size
    ensures docs[size..][a..b] == docs[a + size .. b + size]
  {
  }

  /** Chunk `k` is `docs[k*S : min(k*S + S, N)]`. */
  lemma {:induction false} ChunkAt<T>(docs: seq<T>, size: int, k: nat)
    requires size > 0
    requires k < |Chunks(docs, size)|
    ensures k * size < |docs|
    ensures Chunks(docs, size)[k] == docs[k * size .. Min(k * size + size, |docs|)]
    decreases k
  {
    ChunksUnfold(docs, size);
    if k > 0 {
      var rest := docs[size..];
      ChunkAt(rest, size, k - 1);
      ShiftBound(k, size, |docs|);
      SliceOfSuffix(docs, size, (k - 1) * size, Min((k - 1) * size + size, |rest|));
    }
  }

  /** One iteration at start `i`: the chunks from `i` are the chunk
      `docs[i:end]` followed by the chunks from the next start. */
  lemma LoopStep<T>(docs: seq<T>, size: int, i: nat)
    requires size > 0 && i < |docs|
    ensures Chunks(docs[i..], size)
         == [docs[i..ChunkEnd(i, size, |docs|)]] + Chunks(docs[Min(i + size, |docs|)..], size)
  {
    var rest := docs[i..];
    ChunksUnfold(rest, size);
    assert rest[..ChunkEnd(0, size, |rest|)] == docs[i..ChunkEnd(i, size, |docs|)];
    assert rest[ChunkEnd(0, size, |rest|)..] == docs[Min(i + size, |docs|)..];
  }

  /** The loop itself, mirroring the source statement by statement. */
  method ChunkLoop<T>(docs: seq<T>, chunkSize: int) returns (chunks: seq<seq<T>>)
    requires LoopDefined(|docs|, chunkSize)
    ensures chunks == Chunks(docs, chunkSize)
    ensures Flatten(chunks) == docs
  {
    chunks := [];
    var i := 0;
    while i < |docs|
      invariant 0 <= i
      invariant i < |docs| ==> chunkSize > 0
      invariant chunks + Chunks(docs[Min(i, |docs|)..], chunkSize) == Chunks(docs, chunkSize)
      decreases |docs| - i
    {
      var end := ChunkEnd(i, chunkSize, |docs|);
      var chunk := docs[i..end];
      var next := Min(i + chunkSize, |docs|);
      LoopStep(docs, chunkSize, i);
      assert chunks + [chunk] + Chunks(docs[next..], chunkSize) == chunks + Chunks(docs[i..], chunkSize);
      chunks := chunks + [chunk];
      i := i + chunkSize;
      assert Min(i, |docs|) == next;
    }
    assert docs[Min(i, |docs|)..] == [];
    assert chunks == Chunks(docs, chunkSize);
    ChunksFlatten(docs, chunkSize);
  }
}

=== FILE: concurrent_bulk_insert.dfy ===
/** The concurrent ingestion program: `BulkInsertConcurrent` (one unit of work
    per chunk, first error wins), `BulkInsertConcurrentV2` (one shared indexer
    fed by a worker pool, per-document errors discarded) and
    `BulkInsertConcurrentV3` (the plain fail-fast loop without ordinals).
    Its `BulkInsert` is `Indexer.BulkInsert` with the `Anonymous` flavor.

    Goroutines are not modelled; what the scheduler decides becomes a
    parameter: the order in which chunk units finish (`order`) and which
    worker takes each queued document (`assign`). */
module ConcurrentBulkInsert {
  import opened Outcomes
  import opened Indexer
  import opened Chunking

  /** The capacity-1 error channel. Each failing unit tries a non-blocking send
      (`select { case errCh <- err: default: }`); the send lands only while the
      slot is empty. `outcomes` are the unit results in the order the units
      finished. */
  function FirstErrorWins(slot: Option<Error>, outcomes: seq<Outcome<Error>>): (r: Option<Error>)
    ensures slot.Some? ==> r == slot
    ensures r.None? <==> slot.None? && forall j :: 0 <= j < |outcomes| ==> outcomes[j].Pass?
    decreases |outcomes|
  {
    if |outcomes| == 0 then slot
    else
      var next := if slot.None? && outcomes[0].Fail? then Some(outcomes[0].error) else slot;
      FirstErrorWins(next, outcomes[1..])
  }

  /** An empty slot ends up holding the error of the first failing outcome. */
  lemma {:induction false} FirstErrorWinsIsFirst(outcomes: seq<Outcome<Error>>)
    requires FirstErrorWins(None, outcomes).Some?
    ensures exists j :: (0 <= j < |outcomes|
      && outcomes[j] == Fail(FirstErrorWins(None, outcomes).value)
      && forall i :: 0 <= i < j ==> outcomes[i].Pass?)
    decreases |outcomes|
  {
    var e := FirstErrorWins(None, outcomes).value;
    if outcomes[0].Fail? {
      assert outcomes[0] == Fail(e);
    } else {
      assert FirstErrorWins(None, outcomes) == FirstErrorWins(None, outcomes[1..]);
      FirstErrorWinsIsFirst(outcomes[1..]);
      var j :| 0 <= j < |outcomes[1..]|
        && outcomes[1..][j] == Fail(e)
        && forall i :: 0 <= i < j ==> outcomes[1..][i].Pass?;
      assert outcomes[j + 1] == Fail(e);
      forall i | 0 <= i < j + 1
        ensures outcomes[i].Pass?
      {
        if i > 0 {
          assert outcomes[i] == outcomes[1..][i - 1];
        }
      }
    }
  }

  /** A completion order of `n` units: `n` entries naming every unit, so each
      unit finishes exactly once. */
  predicate IsSchedule(order: seq<nat>, n: nat) {
    && |order| == n
    && (forall j :: 0 <= j < |order| ==> order[j] < n)
    && (forall k :: 0 <= k < n ==> k in order)
  }

  /** Every chunk runs `BulkInsert` on a session of its own, to completion. */
  function Units(sessions: nat -> Session, chunks: seq<seq<Doc>>): (units: seq<Run>)
    ensures |units| == |chunks|
    ensures forall k :: 0 <= k < |chunks| ==> units[k] == BulkInsert(sessions(k), Anonymous, chunks[k])
  {
    seq(|chunks|, k requires 0 <= k < |chunks| => BulkInsert(sessions(k), Anonymous, chunks[k]))
  }

  /** The unit results in completion order. */
  function Observed(units: seq<Run>, order: seq<nat>): (outcomes: seq<Outcome<Error>>)
    requires forall j :: 0 <= j < |order| ==> order[j] < |units|
    ensures |outcomes| == |order|
    ensures forall j :: 0 <= j < |order| ==> outcomes[j] == units[order[j]].result
  {
    seq(|order|, j requires 0 <= j < |order| => units[order[j]].result)
  }

  datatype ConcurrentRun = ConcurrentRun(units: seq<Run>, result: Outcome<Error>)

  /** One unit per chunk, then the error channel read once after all units
      finished. Nil means every unit returned nil; an error is, wrapped once,
      the error of a unit that failed. */
  function BulkInsertConcurrent(sessions: nat -> Session, docs: seq<Doc>, chunkSize: int, order: seq<nat>): (r: ConcurrentRun)
    requires LoopDefined(|docs|, chunkSize)
    requires IsSchedule(order, |Chunks(docs, chunkSize)|)
    ensures |r.units| == |Chunks(docs, chunkSize)|
    ensures r.result.Pass? ==> forall j :: 0 <= j < |order| ==> r.units[order[j]].result.Pass?
    ensures r.result.Fail? ==>
      && r.result.error.ConcurrentFailed?
      && exists j :: 0 <= j < |order| && r.units[order[j]].result == Fail(r.result.error.inner)
  {
    var units := Units(sessions, Chunks(docs, chunkSize));
    var outcomes := Observed(units, order);
    match FirstErrorWins(None, outcomes)
    case None => ConcurrentRun(units, Pass)
    case Some(e) =>
      FirstErrorWinsIsFirst(outcomes);
      ConcurrentRun(units, Fail(ConcurrentFailed(e)))
  }

  /** One unit per chunk, each the full `BulkInsert` of its chunk; and the call
      returns nil exactly when every unit did, whatever the completion order. */
  lemma ConcurrentSucceedsIff(sessions: nat -> Session, docs: seq<Doc>, chunkSize: int, order: seq<nat>)
    requires LoopDefined(|docs|, chunkSize)
    requires IsSchedule(order, |Chunks(docs, chunkSize)|)
    ensures var r := BulkInsertConcurrent(sessions, docs, chunkSize, order);
      && |r.units| == |Chunks(docs, chunkSize)|
      && (forall k :: 0 <= k < |r.units| ==> r.units[k] == BulkInsert(sessions(k), Anonymous, Chunks(docs, chunkSize)[k]))
      && (r.result.Pass? <==> forall k :: 0 <= k < |r.units| ==> r.units[k].result.Pass?)
  {
    var r := BulkInsertConcurrent(sessions, docs, chunkSize, order);
    var outcomes := Observed(r.units, order);
    if r.result.Pass? {
      forall k | 0 <= k < |r.units|
        ensures r.units[k].result.Pass?
      {
        assert k in order;
        var j :| 0 <= j < |order| && order[j] == k;
        assert outcomes[j].Pass?;
      }
    }
  }

  /** On failure the call returns exactly one error, wrapped once: the error of
      the unit that finished first among the failing ones. */
  lemma ConcurrentFirstObservedWins(sessions: nat -> Session, docs: seq<Doc>, chunkSize: int, order: seq<nat>)
    requires LoopDefined(|docs|, chunkSize)
    requires IsSchedule(order, |Chunks(docs, chunkSize)|)
    requires BulkInsertConcurrent(sessions, docs, chunkSize, order).result.Fail?
    ensures var r := BulkInsertConcurrent(sessions, docs, chunkSize, order);
      exists j :: 0 <= j < |order|
        && r.units[order[j]].result.Fail?
        && r.result.error == ConcurrentFailed(r.units[order[j]].result.error)
        && forall i :: 0 <= i < j ==> r.units[order[i]].result.Pass?
  {
    var r := BulkInsertConcurrent(sessions, docs, chunkSize, order);
    FirstErrorWinsIsFirst(Observed(r.units, order));
  }

  /** Hence the returned error is always the error of some chunk. */
  lemma ConcurrentErrorIsAChunkError(sessions: nat -> Session, docs: seq<Doc>, chunkSize: int, order: seq<nat>)
    requires LoopDefined(|docs|, chunkSize)
    requires IsSchedule(order, |Chunks(docs, chunkSize)|)
    requires BulkInsertConcurrent(sessions, docs, chunkSize, order).result.Fail?
    ensures var r := BulkInsertConcurrent(sessions, docs, chunkSize, order);
      exists k :: 0 <= k < |r.units|
        && r.units[k].result.Fail?
        && r.result.error == ConcurrentFailed(r.units[k].result.error)
  {
    ConcurrentFirstObservedWins(sessions, docs, chunkSize, order);
    var r := BulkInsertConcurrent(sessions, docs, chunkSize, order);
    var j :| 0 <= j < |order|
      && r.units[order[j]].result.Fail?
      && r.result.error == ConcurrentFailed(r.units[order[j]].result.error);
    assert order[j] < |r.units|;
  }

  /** When exactly one chunk fails, every completion order returns that
      chunk's error. */
  lemma ConcurrentSingleFailure(sessions: nat -> Session, docs: seq<Doc>, chunkSize: int, order: seq<nat>, k: nat)
    requires LoopDefined(|docs|, chunkSize)
    requires IsSchedule(order, |Chunks(docs, chunkSize)|)
    requires k < |Chunks(docs, chunkSize)|
    requires Units(sessions, Chunks(docs, chunkSize))[k].result.Fail?
    requires forall k' :: 0 <= k' < |Chunks(docs, chunkSize)| && k' != k ==>
      Units(sessions, Chunks(docs, chunkSize))[k'].result.Pass?
    ensures BulkInsertConcurrent(sessions, docs, chunkSize, order).result
         == Fail(ConcurrentFailed(Units(sessions, Chunks(docs, chunkSize))[k].result.error))
  {
    ConcurrentSucceedsIff(sessions, docs, chunkSize, order);
    ConcurrentErrorIsAChunkError(sessions, docs, chunkSize, order);
  }

  /** An empty batch launches no unit and returns nil, for any chunk size. */
  lemma ConcurrentEmpty(sessions: nat -> Session, chunkSize: int)
    ensures BulkInsertConcurrent(sessions, [], chunkSize, []).units == []
    ensures BulkInsertConcurrent(sessions, [], chunkSize, []).result == Pass
  {
  }

  /** The error of a `BulkInsert` is one of its own four kinds; a per-document
      error carries the ordinal of the document within the batch it was given. */
  lemma ChunkErrorOrdinalInRange(s: Session, docs: seq<Doc>, i: nat)
    requires i <= |docs|
    requires AddFrom(s, Anonymous, docs, i).result.Fail?
    ensures var e := AddFrom(s, Anonymous, docs, i).result.error;
      && (e.MarshalFailed? || e.AddFailed?)
      && e.ordinal.Some? && i < e.ordinal.value <= |docs|
  {
    Indexer.AddFromErrorOrdinal(s, Anonymous, docs, i);
  }

  /** The ordinal in the error of `BulkInsertConcurrent` counts from the start
      of the failing chunk, not of the batch: it never exceeds the chunk size. */
  lemma ConcurrentOrdinalIsChunkRelative(sessions: nat -> Session, docs: seq<Doc>, chunkSize: int, order: seq<nat>)
    requires LoopDefined(|docs|, chunkSize)
    requires IsSchedule(order, |Chunks(docs, chunkSize)|)
    requires BulkInsertConcurrent(sessions, docs, chunkSize, order).result.Fail?
    ensures var e := BulkInsertConcurrent(sessions, docs, chunkSize, order).result.error;
      && e.ConcurrentFailed?
      && (e.inner.CreateFailed? || e.inner.MarshalFailed? || e.inner.AddFailed? || e.inner.CloseFailed?)
      && (e.inner.MarshalFailed? || e.inner.AddFailed? ==>
            e.inner.ordinal.Some? && 1 <= e.inner.ordinal.value <= chunkSize)
  {
    ConcurrentErrorIsAChunkError(sessions, docs, chunkSize, order);
    var r := BulkInsertConcurrent(sessions, docs, chunkSize, order);
    var chunks := Chunks(docs, chunkSize);
    var k :| 0 <= k < |r.units|
      && r.units[k].result.Fail?
      && r.result.error == ConcurrentFailed(r.units[k].result.error);
    var s := sessions(k);
    if s.create.Pass? && AddFrom(s, Anonymous, chunks[k], 0).result.Fail? {
      ChunkErrorOrdinalInRange(s, chunks[k], 0);
    }
  }

  /** When every unit succeeds, each chunk's unit added every document of its
      chunk once, in chunk order, and then closed; and the chunks, in order,
      are the batch. So every document is submitted exactly once. */
  lemma ConcurrentCoverage(sessions: nat -> Session, docs: seq<Doc>, chunkSize: int, order: seq<nat>)
    requires LoopDefined(|docs|, chunkSize)
    requires IsSchedule(order, |Chunks(docs, chunkSize)|)
    requires BulkInsertConcurrent(sessions, docs, chunkSize, order).result.Pass?
    ensures Flatten(Chunks(docs, chunkSize)) == docs
    ensures var r := BulkInsertConcurrent(sessions, docs, chunkSize, order);
      forall k :: 0 <= k < |r.units| ==>
        var chunk := Chunks(docs, chunkSize)[k];
        && |r.units[k].log| == |chunk| + 1
        && r.units[k].log[|chunk|] == Closed
        && forall j :: 0 <= j < |chunk| ==>
             Accepted(sessions(k), Anonymous, chunk, j)
             && r.units[k].log[j] == AddCall(sessions(k), Anonymous, chunk, j)
  {
    ChunksFlatten(docs, chunkSize);
    ConcurrentSucceedsIff(sessions, docs, chunkSize, order);
    var r := BulkInsertConcurrent(sessions, docs, chunkSize, order);
    forall k | 0 <= k < |r.units|
      ensures var chunk := Chunks(docs, chunkSize)[k];
        && |r.units[k].log| == |chunk| + 1
        && r.units[k].log[|chunk|] == Closed
        && forall j :: 0 <= j < |chunk| ==>
             Accepted(sessions(k), Anonymous, chunk, j)
             && r.units[k].log[j] == AddCall(sessions(k), Anonymous, chunk, j)
    {
      var chunk := Chunks(docs, chunkSize)[k];
      BulkInsertSucceedsIff(sessions(k), Anonymous, chunk);
      BulkInsertClosesOnlyAfterAll(sessions(k), Anonymous, chunk);
    }
  }

  // ---------------------------------------------------------------------------
  // BulkInsertConcurrentV2: a producer feeds an unbuffered queue; `numWorkers`
  // workers drain it into one shared indexer and discard every per-document
  // error; the indexer is closed after the workers finish.

  /** Which worker takes each queued document. */
  predicate IsAssignment(assign: seq<nat>, n: nat, numWorkers: int) {
    |assign| == n && forall j :: 0 <= j < n ==> assign[j] < numWorkers
  }

  /** What a worker did with one document: skipped it because it did not
      marshal, or added it (the outcome of `Add` is dropped). */
  datatype Attempt = Skipped(cause: Cause) | Tried(item: Item, outcome: Outcome<Cause>)

  datatype Handled = Handled(worker: nat, pos: nat, attempt: Attempt)

  datatype PoolRun = PoolRun(handled: seq<Handled>, closed: bool, result: Outcome<Error>)

  /** One worker iteration: the document is skipped exactly when it does not
      marshal; otherwise an anonymous `"index"` item with its body is added,
      and whatever `Add` answers is recorded and then ignored. */
  function Handle(s: Session, docs: seq<Doc>, assign: seq<nat>, j: nat): (h: Handled)
    requires j < |docs| && |assign| == |docs|
    ensures h.pos == j && h.worker == assign[j]
    ensures h.attempt.Tried? <==> s.marshal(docs[j]).Success?
    ensures h.attempt.Skipped? ==> h.attempt.cause == s.marshal(docs[j]).error
    ensures h.attempt.Tried? ==>
      && h.attempt.item.action == "index"
      && h.attempt.item.body == s.marshal(docs[j]).value
      && h.attempt.item.index.None? && h.attempt.item.documentId.None?
      && h.attempt.outcome == s.add(j, h.attempt.item)
  {
    match s.marshal(docs[j])
    case Failure(c) => Handled(assign[j], j, Skipped(c))
    case Success(body) =>
      var item := ItemFor(Anonymous, j, body);
      Handled(assign[j], j, Tried(item, s.add(j, item)))
  }

  /** With no worker (`numWorkers <= 0`) nobody reads the queue: the producer
      blocks on its first send and no document is added, yet the wait group is
      already drained, so the indexer is closed all the same. */
  function BulkInsertConcurrentV2(s: Session, docs: seq<Doc>, numWorkers: int, assign: seq<nat>): (r: PoolRun)
    requires numWorkers > 0 ==> IsAssignment(assign, |docs|, numWorkers)
    ensures r.closed <==> s.create.Pass?
    ensures r.result.Pass? <==> s.create.Pass? && s.close.Pass?
    ensures r.result.Fail? ==> r.result.error.CreateFailed? || r.result.error.CloseFailed?
    ensures s.create.Fail? ==> r.result == Fail(CreateFailed(s.create.error))
    ensures s.create.Pass? && s.close.Fail? ==> r.result == Fail(CloseFailed(s.close.error))
    ensures numWorkers <= 0 || s.create.Fail? ==> r.handled == []
    ensures numWorkers > 0 && s.create.Pass? ==>
      |r.handled| == |docs| && forall j :: 0 <= j < |docs| ==> r.handled[j].pos == j
  {
    if s.create.Fail? then PoolRun([], false, Fail(CreateFailed(s.create.error)))
    else
      var handled :=
        if numWorkers > 0 then seq(|docs|, j requires 0 <= j < |docs| => Handle(s, docs, assign, j))
        else [];
      PoolRun(handled, true, if s.close.Fail? then Fail(CloseFailed(s.close.error)) else Pass)
  }

  /** With workers and an indexer, the pool's record of document `j` is one
      worker step on it, and the documents offered to `Add` are exactly those
      that marshal: the skipped ones are dropped, and nothing else is. */
  lemma V2PoolIsWorkerSteps(s: Session, docs: seq<Doc>, numWorkers: int, assign: seq<nat>)
    requires numWorkers > 0 && IsAssignment(assign, |docs|, numWorkers)
    requires s.create.Pass?
    ensures var r := BulkInsertConcurrentV2(s, docs, numWorkers, assign);
      && (forall j :: 0 <= j < |docs| ==> r.handled[j] == Handle(s, docs, assign, j))
      && (set h | h in r.handled && h.attempt.Tried? :: h.pos)
         == (set j | 0 <= j < |docs| && s.marshal(docs[j]).Success?)
  {
    var r := BulkInsertConcurrentV2(s, docs, numWorkers, assign);
    var tried := set h | h in r.handled && h.attempt.Tried? :: h.pos;
    var marshals := set j | 0 <= j < |docs| && s.marshal(docs[j]).Success?;
    forall j | j in marshals ensures j in tried {
      assert r.handled[j] in r.handled;
    }
  }

  /** Two sessions that agree on creating and closing give the same result, no
      matter how marshalling and `Add` behave, how many documents there are, or
      how the scheduler spreads them over the workers. */
  lemma V2IgnoresDocumentErrors(
    s1: Session, docs1: seq<Doc>, numWorkers1: int, assign1: seq<nat>,
    s2: Session, docs2: seq<Doc>, numWorkers2: int, assign2: seq<nat>)
    requires numWorkers1 > 0 ==> IsAssignment(assign1, |docs1|, numWorkers1)
    requires numWorkers2 > 0 ==> IsAssignment(assign2, |docs2|, numWorkers2)
    requires s1.create == s2.create && s1.close == s2.close
    ensures BulkInsertConcurrentV2(s1, docs1, numWorkers1, assign1).result
         == BulkInsertConcurrentV2(s2, docs2, numWorkers2, assign2).result
  {
  }

  /** With at least one worker, every queued document is handled once, by one
      of the workers, at its own queue position; it is added exactly when it
      marshals. With none, nothing is handled. */
  lemma V2HandlesEachDocumentOnce(s: Session, docs: seq<Doc>, numWorkers: int, assign: seq<nat>)
    requires numWorkers > 0 ==> IsAssignment(assign, |docs|, numWorkers)
    requires s.create.Pass?
    ensures var r := BulkInsertConcurrentV2(s, docs, numWorkers, assign);
      && (numWorkers <= 0 ==> r.handled == [])
      && (numWorkers > 0 ==>
            && |r.handled| == |docs|
            && (forall j :: 0 <= j < |docs| ==>
                  && r.handled[j].pos == j
                  && r.handled[j].worker < numWorkers
                  && (r.handled[j].attempt.Tried? <==> s.marshal(docs[j]).Success?)))
  {
  }

  // ---------------------------------------------------------------------------
  // BulkInsertConcurrentV3: the plain fail-fast loop on one indexer.

  /** The same error without its ordinal. */
  function DropOrdinal(o: Outcome<Error>): Outcome<Error> {
    match o
    case Fail(MarshalFailed(_, c)) => Fail(MarshalFailed(None, c))
    case Fail(AddFailed(_, c)) => Fail(AddFailed(None, c))
    case _ => o
  }

  lemma {:induction false} V3AddFrom(s: Session, docs: seq<Doc>, i: nat)
    requires i <= |docs|
    ensures AddFrom(s, Unnumbered, docs, i).log == AddFrom(s, Anonymous, docs, i).log
    ensures AddFrom(s, Unnumbered, docs, i).result == DropOrdinal(AddFrom(s, Anonymous, docs, i).result)
    decreases |docs| - i
  {
    if i < |docs| {
      V3AddFrom(s, docs, i + 1);
    }
  }

  /** `BulkInsertConcurrentV3` makes exactly the calls `BulkInsert` makes and
      fails exactly when it fails, with the same error except that per-document
      messages carry no ordinal. */
  lemma V3IsBulkInsertWithoutOrdinals(s: Session, docs: seq<Doc>)
    ensures BulkInsert(s, Unnumbered, docs).log == BulkInsert(s, Anonymous, docs).log
    ensures BulkInsert(s, Unnumbered, docs).result == DropOrdinal(BulkInsert(s, Anonymous, docs).result)
  {
    V3AddFrom(s, docs, 0);
  }
}

=== FILE: decimal.dfy ===
/** Decimal rendering of naturals, as Go's `fmt.Sprintf("%d", n)` does for a
    non-negative `int`, and the write identifiers derived from it. */
module Decimal {

  predicate IsDigit(c: char) {
    '0' <= c <= '9'
  }

  predicate AllDigits(s: string) {
    forall i :: 0 <= i < |s| ==> IsDigit(s[i])
  }

  function DigitValue(c: char): (d: nat)
    requires IsDigit(c)
    ensures d < 10
  {
    c as int - '0' as int
  }

  function DigitChar(d: nat): (c: char)
    requires d < 10
    ensures IsDigit(c) && DigitValue(c) == d
    ensures c == '0' <==> d == 0
  {
    ('0' as int + d) as char
  }

  /** `%d` of a natural: at least one digit, and no leading zero except for 0
      itself. */
  function Format(n: nat): (s: string)
    ensures 1 <= |s|
    ensures AllDigits(s)
    ensures s[0] == '0' <==> n == 0
    decreases n
  {
    if n < 10 then [DigitChar(n)] else Format(n / 10) + [DigitChar(n % 10)]
  }

  /** The value of a string of decimal digits; the inverse of `Format`. */
  function Parse(s: string): nat
    requires AllDigits(s)
    decreases |s|
  {
    if |s| == 0 then 0 else Parse(s[..|s| - 1]) * 10 + DigitValue(s[|s| - 1])
  }

  /** Reading back a rendered natural gives the natural. */
  lemma {:induction false} ParseFormat(n: nat)
    ensures Parse(Format(n)) == n
    decreases n
  {
    if n >= 10 {
      var s := Format(n);
      assert s[..|s| - 1] == Format(n / 10);
      ParseFormat(n / 10);
    }
  }

  /** Distinct naturals render to distinct strings. */
  lemma FormatInjective(a: nat, b: nat)
    ensures Format(a) == Format(b) <==> a == b
  {
    if Format(a) == Format(b) {
      ParseFormat(a);
      ParseFormat(b);
    }
  }

  /** The write identifier of the document at 0-based position `i`: its
      1-based ordinal, in decimal. */
  function DocumentId(i: nat): (id: string)
    ensures AllDigits(id) && Parse(id) == i + 1
    ensures id != "0" && id[0] != '0'
  {
    ParseFormat(i + 1);
    Format(i + 1)
  }

  /** Within one call the identifiers are pairwise distinct. */
  lemma DocumentIdsDistinct(i: nat, j: nat)
    ensures DocumentId(i) == DocumentId(j) <==> i == j
  {
    FormatInjective(i + 1, j + 1);
  }
}

=== FILE: indexer.dfy ===
/** The bulk indexer (`esutil.BulkIndexer`) as an oracle, and the fail-fast
    `BulkInsert` loop that both ingestion programs share: create an indexer,
    marshal and add each document in order, stop at the first failure, and
    close the indexer only when every document was added. */
module Indexer {
  import opened Outcomes
  import opened Json
  import Decimal

  /** One document: a Go `map[string]interface{}`. */
  type Doc = Object

  /** The message of an underlying error. */
  type Cause = string

  /** An `esutil.BulkIndexerItem`: the optional target index, the action, the
      optional document ID, and the marshalled body. */
  datatype Item = Item(index: Option<string>, action: string, documentId: Option<string>, body: string)

  /** What the outside world answers during one dispatch: whether the indexer
      can be created, what `json.Marshal` makes of a document, whether `Add`
      accepts the item at a given 0-based position, and whether `Close`
      flushes. */
  datatype Session = Session(
    create: Outcome<Cause>,
    marshal: Doc -> Result<string, Cause>,
    add: (nat, Item) -> Outcome<Cause>,
    close: Outcome<Cause>)

  /** The errors the ingestion functions return, each with the ordinal the
      message carries (1-based), when it carries one. */
  datatype Error =
    | CreateFailed(cause: Cause)
    | MarshalFailed(ordinal: Option<nat>, cause: Cause)
    | AddFailed(ordinal: Option<nat>, cause: Cause)
    | CloseFailed(cause: Cause)
    | InsertFailed(document: nat, cause: Cause)
    | ConcurrentFailed(inner: Error)

  /** A call made on the indexer. */
  datatype Call = Added(pos: nat, item: Item) | Closed

  /** The calls made, in order, and the returned error. */
  datatype Run = Run(log: seq<Call>, result: Outcome<Error>)

  /** The three copies of the loop differ only in the item they build and in
      whether their messages carry an ordinal:
      `Anonymous` — `BulkInsert` in the concurrent program (no index, no ID);
      `Identified` — `BulkInsert` in the bulk-versus-single program (index and
      decimal ID); `Unnumbered` — `BulkInsertConcurrentV3` (no ordinal in its
      messages). */
  datatype Flavor = Anonymous | Identified(index: string) | Unnumbered

  function ItemFor(flavor: Flavor, i: nat, body: string): (item: Item)
    ensures item.action == "index" && item.body == body
    ensures flavor.Identified? <==> item.documentId.Some?
    ensures flavor.Identified? ==> item.index == Some(flavor.index) && item.documentId == Some(Decimal.DocumentId(i))
    ensures !flavor.Identified? ==> item.index == None
  {
    match flavor
    case Identified(index) => Item(Some(index), "index", Some(Decimal.DocumentId(i)), body)
    case _ => Item(None, "index", None, body)
  }

  function OrdinalFor(flavor: Flavor, i: nat): Option<nat> {
    if flavor.Unnumbered? then None else Some(i + 1)
  }

  /** The document at position `i` marshals and its item is accepted by `Add`. */
  predicate Accepted(s: Session, flavor: Flavor, docs: seq<Doc>, i: nat)
    requires i < |docs|
  {
    && s.marshal(docs[i]).Success?
    && s.add(i, ItemFor(flavor, i, s.marshal(docs[i]).value)).Pass?
  }

  /** The `Add` call the loop makes for position `i`, once the document has
      marshalled. */
  function AddCall(s: Session, flavor: Flavor, docs: seq<Doc>, i: nat): Call
    requires i < |docs| && s.marshal(docs[i]).Success?
  {
    Added(i, ItemFor(flavor, i, s.marshal(docs[i]).value))
  }

  /** The error of the first failing position `i`. */
  function FailureAt(s: Session, flavor: Flavor, docs: seq<Doc>, i: nat): Error
    requires i < |docs| && !Accepted(s, flavor, docs, i)
  {
    match s.marshal(docs[i])
    case Failure(c) => MarshalFailed(OrdinalFor(flavor, i), c)
    case Success(body) => AddFailed(OrdinalFor(flavor, i), s.add(i, ItemFor(flavor, i, body)).error)
  }

  /** The loop from position `i` on. It makes at most one call per remaining
      document, and exactly one each when it succeeds. */
  function AddFrom(s: Session, flavor: Flavor, docs: seq<Doc>, i: nat): (r: Run)
    requires i <= |docs|
    ensures |r.log| <= |docs| - i
    ensures r.result.Pass? ==> |r.log| == |docs| - i
    decreases |docs| - i
  {
    if i == |docs| then Run([], Pass)
    else
      match s.marshal(docs[i])
      case Failure(c) => Run([], Fail(MarshalFailed(OrdinalFor(flavor, i), c)))
      case Success(body) =>
        var item := ItemFor(flavor, i, body);
        match s.add(i, item)
        case Fail(c) => Run([Added(i, item)], Fail(AddFailed(OrdinalFor(flavor, i), c)))
        case Pass =>
          var rest := AddFrom(s, flavor, docs, i + 1);
          Run([Added(i, item)] + rest.log, rest.result)
  }

  /** The whole call: create, add every document, close. It returns nil only
      after one `Add` per document and a successful `Close`; a failure is one
      of the four kinds, a `Close` failure comes after every `Add`, and a
      per-document failure carries the ordinal of the document the log stops
      at. */
  function BulkInsert(s: Session, flavor: Flavor, docs: seq<Doc>): (r: Run)
    ensures r.result.Pass? ==> s.create.Pass? && s.close.Pass? && |r.log| == |docs| + 1 && r.log[|docs|] == Closed
    ensures r.result.Fail? ==>
      r.result.error.CreateFailed? || r.result.error.MarshalFailed?
      || r.result.error.AddFailed? || r.result.error.CloseFailed?
    ensures r.result.Fail? && r.result.error.CreateFailed? ==> s.create.Fail? && r.log == []
    ensures s.create.Fail? ==> r == Run([], Fail(CreateFailed(s.create.error)))
    ensures r.result.Fail? && r.result.error.CloseFailed? ==>
      s.close.Fail? && r.result.error == CloseFailed(s.close.error)
    ensures r.result.Fail? && r.result.error.CloseFailed? ==> |r.log| == |docs| + 1 && r.log[|docs|] == Closed
    ensures r.result.Fail? && r.result.error.MarshalFailed? ==>
      |r.log| < |docs| && r.result.error.ordinal == OrdinalFor(flavor, |r.log|)
    ensures r.result.Fail? && r.result.error.AddFailed? ==>
      0 < |r.log| <= |docs| && r.result.error.ordinal == OrdinalFor(flavor, |r.log| - 1)
  {
    if s.create.Fail? then Run([], Fail(CreateFailed(s.create.error)))
    else
      var adds := AddFrom(s, flavor, docs, 0);
      if adds.result.Fail? then AddFromErrorOrdinal(s, flavor, docs, 0); adds
      else if s.close.Fail? then Run(adds.log + [Closed], Fail(CloseFailed(s.close.error)))
      else Run(adds.log + [Closed], Pass)
  }

  /** One step of the loop at position `i`: no call when the document does
      not marshal; otherwise its `Add` call, followed by the rest of the loop
      only when `Add` accepted it. */
  lemma AddFromStep(s: Session, flavor: Flavor, docs: seq<Doc>, i: nat)
    requires i < |docs|
    ensures !s.marshal(docs[i]).Success? ==> AddFrom(s, flavor, docs, i).log == []
    ensures s.marshal(docs[i]).Success? && !Accepted(s, flavor, docs, i) ==>
      AddFrom(s, flavor, docs, i).log == [AddCall(s, flavor, docs, i)]
    ensures !Accepted(s, flavor, docs, i) ==> AddFrom(s, flavor, docs, i).result == Fail(FailureAt(s, flavor, docs, i))
    ensures Accepted(s, flavor, docs, i) ==>
      && AddFrom(s, flavor, docs, i).log == [AddCall(s, flavor, docs, i)] + AddFrom(s, flavor, docs, i + 1).log
      && AddFrom(s, flavor, docs, i).result == AddFrom(s, flavor, docs, i + 1).result
  {
  }

  /** The first position from `i` on whose document is not accepted, or
      `|docs|` when there is none. */
  function FirstRejected(s: Session, flavor: Flavor, docs: seq<Doc>, i: nat): (k: nat)
    requires i <= |docs|
    ensures i <= k <= |docs|
    ensures forall j :: i <= j < k ==> Accepted(s, flavor, docs, j)
    ensures k < |docs| ==> !Accepted(s, flavor, docs, k)
    decreases |docs| - i
  {
    if i == |docs| || !Accepted(s, flavor, docs, i) then i
    else FirstRejected(s, flavor, docs, i + 1)
  }

  /** A failure of the loop is a per-document one and names the document the
      log stops at: the next one when it did not marshal, the last one added
      when `Add` refused it. */
  lemma AddFromErrorOrdinal(s: Session, flavor: Flavor, docs: seq<Doc>, i: nat)
    requires i <= |docs|
    ensures var r := AddFrom(s, flavor, docs, i);
      r.result.Fail? ==> r.result.error.MarshalFailed? || r.result.error.AddFailed?
    ensures var r := AddFrom(s, flavor, docs, i);
      r.result.Fail? && r.result.error.MarshalFailed? ==>
        |r.log| < |docs| - i && r.result.error.ordinal == OrdinalFor(flavor, i + |r.log|)
    ensures var r := AddFrom(s, flavor, docs, i);
      r.result.Fail? && r.result.error.AddFailed? ==>
        0 < |r.log| && r.result.error.ordinal == OrdinalFor(flavor, i + |r.log| - 1)
  {
    var k := FirstRejected(s, flavor, docs, i);
    if k < |docs| {
      AddFromStopsAt(s, flavor, docs, i, k);
    } else {
      AddFromSucceedsIff(s, flavor, docs, i);
    }
  }

  /** The loop succeeds exactly when every remaining position is accepted; then
      it has added every one of them, in order, and nothing else. */
  lemma {:induction false} AddFromSucceedsIff(s: Session, flavor: Flavor, docs: seq<Doc>, i: nat)
    requires i <= |docs|
    ensures AddFrom(s, flavor, docs, i).result.Pass?
        <==> forall j :: i <= j < |docs| ==> Accepted(s, flavor, docs, j)
    ensures AddFrom(s, flavor, docs, i).result.Pass? ==>
      && |AddFrom(s, flavor, docs, i).log| == |docs| - i
      && forall j :: i <= j < |docs| ==>
           Accepted(s, flavor, docs, j) && AddFrom(s, flavor, docs, i).log[j - i] == AddCall(s, flavor, docs, j)
    decreases |docs| - i
  {
    if i < |docs| {
      AddFromStep(s, flavor, docs, i);
      AddFromSucceedsIff(s, flavor, docs, i + 1);
      if !Accepted(s, flavor, docs, i) {
        assert AddFrom(s, flavor, docs, i).result.Fail?;
      } else if AddFrom(s, flavor, docs, i).result.Pass? {
        var log := AddFrom(s, flavor, docs, i).log;
        var rest := AddFrom(s, flavor, docs, i + 1).log;
        forall j | i <= j < |docs|
          ensures Accepted(s, flavor, docs, j) && log[j - i] == AddCall(s, flavor, docs, j)
        {
          if j > i {
            assert log[j - i] == rest[j - i - 1];
          }
        }
      }
    }
  }

  /** The error and the number of calls when `k` is the first position not
      accepted. */
  lemma {:induction false} AddFromStopsAt(s: Session, flavor: Flavor, docs: seq<Doc>, i: nat, k: nat)
    requires i <= k < |docs|
    requires forall j :: i <= j < k ==> Accepted(s, flavor, docs, j)
    requires !Accepted(s, flavor, docs, k)
    ensures AddFrom(s, flavor, docs, i).result == Fail(FailureAt(s, flavor, docs, k))
    ensures |AddFrom(s, flavor, docs, i).log| == k - i + (if s.marshal(docs[k]).Success? then 1 else 0)
    decreases k - i
  {
    AddFromStep(s, flavor, docs, i);
    if i < k {
      assert Accepted(s, flavor, docs, i);
      AddFromStopsAt(s, flavor, docs, i + 1, k);
    }
  }

  /** Fail-fast: when `k` is the first position not accepted, the loop returns
      the error of position `k`, and it has made exactly the `Add` calls of
      positions `i` to `k - 1`, plus the failed call at `k` if the document
      marshalled. Nothing after `k` is attempted. */
  lemma AddFromFailFast(s: Session, flavor: Flavor, docs: seq<Doc>, i: nat, k: nat)
    requires i <= k < |docs|
    requires forall j :: i <= j < k ==> Accepted(s, flavor, docs, j)
    requires !Accepted(s, flavor, docs, k)
    ensures AddFrom(s, flavor, docs, i).result == Fail(FailureAt(s, flavor, docs, k))
    ensures |AddFrom(s, flavor, docs, i).log| == k - i + (if s.marshal(docs[k]).Success? then 1 else 0)
    ensures forall j :: i <= j < k ==>
      Accepted(s, flavor, docs, j) && AddFrom(s, flavor, docs, i).log[j - i] == AddCall(s, flavor, docs, j)
    ensures s.marshal(docs[k]).Success? ==> AddFrom(s, flavor, docs, i).log[k - i] == AddCall(s, flavor, docs, k)
  {
    AddFromStopsAt(s, flavor, docs, i, k);
    forall j | i <= j < k
      ensures Accepted(s, flavor, docs, j) && AddFrom(s, flavor, docs, i).log[j - i] == AddCall(s, flavor, docs, j)
    {
      AddedCallShape(s, flavor, docs, i, j - i);
    }
    if s.marshal(docs[k]).Success? {
      AddedCallShape(s, flavor, docs, i, k - i);
    }
  }

  /** Whatever happens, the loop's calls are `Add` calls at consecutive
      positions starting from `i`; `Close` is never among them. */
  lemma {:induction false} AddFromLog(s: Session, flavor: Flavor, docs: seq<Doc>, i: nat)
    requires i <= |docs|
    ensures |AddFrom(s, flavor, docs, i).log| <= |docs| - i
    ensures forall j :: 0 <= j < |AddFrom(s, flavor, docs, i).log| ==>
      AddFrom(s, flavor, docs, i).log[j].Added? && AddFrom(s, flavor, docs, i).log[j].pos == i + j
    decreases |docs| - i
  {
    if i < |docs| {
      AddFromStep(s, flavor, docs, i);
      AddFromLog(s, flavor, docs, i + 1);
    }
  }

  /** The `j`-th call of the loop from `i` adds the item built from the body
      of document `i + j`. */
  lemma {:induction false} AddedCallShape(s: Session, flavor: Flavor, docs: seq<Doc>, i: nat, j: nat)
    requires i <= |docs|
    requires j < |AddFrom(s, flavor, docs, i).log|
    ensures i + j < |docs|
    ensures s.marshal(docs[i + j]).Success?
    ensures AddFrom(s, flavor, docs, i).log[j] == AddCall(s, flavor, docs, i + j)
    decreases j
  {
    var log := AddFrom(s, flavor, docs, i).log;
    assert i < |docs|;
    AddFromStep(s, flavor, docs, i);
    assert s.marshal(docs[i]).Success?;
    if j > 0 {
      assert Accepted(s, flavor, docs, i);
      var rest := AddFrom(s, flavor, docs, i + 1).log;
      assert log == [AddCall(s, flavor, docs, i)] + rest;
      AddedCallShape(s, flavor, docs, i + 1, j - 1);
      assert log[j] == rest[j - 1];
    } else {
      assert log[0] == AddCall(s, flavor, docs, i);
    }
  }

  /** `BulkInsert` returns nil exactly when the indexer was created, every
      document was added, and `Close` succeeded. */
  lemma BulkInsertSucceedsIff(s: Session, flavor: Flavor, docs: seq<Doc>)
    ensures BulkInsert(s, flavor, docs).result.Pass?
        <==> && s.create.Pass?
             && (forall j :: 0 <= j < |docs| ==> Accepted(s, flavor, docs, j))
             && s.close.Pass?
  {
    AddFromSucceedsIff(s, flavor, docs, 0);
  }

  /** `Close` is reached only after all N documents were added; then the calls
      are exactly the N `Add`s in document order followed by one `Close`. */
  lemma BulkInsertClosesOnlyAfterAll(s: Session, flavor: Flavor, docs: seq<Doc>)
    ensures Closed in BulkInsert(s, flavor, docs).log
        <==> s.create.Pass? && forall j :: 0 <= j < |docs| ==> Accepted(s, flavor, docs, j)
    ensures Closed in BulkInsert(s, flavor, docs).log ==>
      && |BulkInsert(s, flavor, docs).log| == |docs| + 1
      && BulkInsert(s, flavor, docs).log[|docs|] == Closed
      && forall j :: 0 <= j < |docs| ==>
           Accepted(s, flavor, docs, j) && BulkInsert(s, flavor, docs).log[j] == AddCall(s, flavor, docs, j)
  {
    AddFromSucceedsIff(s, flavor, docs, 0);
    AddFromLog(s, flavor, docs, 0);
  }

  /** Fail-fast for the whole call: when the indexer was created and `k` is the
      first document not accepted, the error is that of document `k` (carrying
      ordinal `k + 1` where the message has one), no later document is
      attempted, and `Close` is not called. */
  lemma BulkInsertFailFast(s: Session, flavor: Flavor, docs: seq<Doc>, k: nat)
    requires s.create.Pass?
    requires k < |docs|
    requires forall j :: 0 <= j < k ==> Accepted(s, flavor, docs, j)
    requires !Accepted(s, flavor, docs, k)
    ensures BulkInsert(s, flavor, docs).result == Fail(FailureAt(s, flavor, docs, k))
    ensures FailureAt(s, flavor, docs, k).ordinal == OrdinalFor(flavor, k)
    ensures Closed !in BulkInsert(s, flavor, docs).log
    ensures forall c :: c in BulkInsert(s, flavor, docs).log ==> c.Added? && c.pos <= k
  {
    AddFromFailFast(s, flavor, docs, 0, k);
    AddFromLog(s, flavor, docs, 0);
    var log := BulkInsert(s, flavor, docs).log;
    forall c | c in log
      ensures c.Added? && c.pos <= k
    {
      var j :| 0 <= j < |log| && log[j] == c;
    }
  }

  /** An empty batch adds nothing: the indexer is created and closed, and the
      result is that of `Close`. */
  lemma BulkInsertEmpty(s: Session, flavor: Flavor)
    ensures s.create.Pass? ==> BulkInsert(s, flavor, []).log == [Closed]
    ensures BulkInsert(s, flavor, []).result.Pass? <==> s.create.Pass? && s.close.Pass?
  {
  }
}

=== FILE: json.dfy ===
/** An abstract JSON value, standing for Go's `interface{}` as produced by
    `json.Unmarshal`, and the map operations the builders perform on objects. */
module Json {

  datatype Json =
    | JNull
    | JBool(b: bool)
    | JNum(n: int)
    | JStr(s: string)
    | JArr(items: seq<Json>)
    | JObj(fields: map<string, Json>)

  /** A Go `map[string]interface{}`. */
  type Object = map<string, Json>

  /** `m[key] = v` on a non-nil Go map: the key is bound to `v` and no other
      entry changes. */
  function Put(m: Object, key: string, v: Json): (r: Object)
    ensures r.Keys == m.Keys + {key}
    ensures r[key] == v
    ensures forall k :: k in m && k != key ==> r[k] == m[k]
  {
    m[key := v]
  }

  /** Right-biased merge: the result of copying every entry of `update` into
      `base`. Keys of `update` take its values; every other key keeps the value
      it had in `base`. */
  function Merge(base: Object, update: Object): (r: Object)
    ensures r.Keys == base.Keys + update.Keys
    ensures forall k :: k in update ==> r[k] == update[k]
    ensures forall k :: k in base && k !in update ==> r[k] == base[k]
  {
    base + update
  }

  /** Go's `for k, v := range update { base[k] = v }`. Go visits the keys in an
      unspecified order; here each step picks an arbitrary pending key, so the
      postcondition holds for every visiting order. */
  method MergeLoop(base: Object, update: Object) returns (r: Object)
    ensures r.Keys == base.Keys + update.Keys
    ensures forall k :: k in update ==> r[k] == update[k]
    ensures forall k :: k in base && k !in update ==> r[k] == base[k]
    ensures r == Merge(base, update)
  {
    r := base;
    var pending := update.Keys;
    while pending != {}
      invariant pending <= update.Keys
      invariant r.Keys == base.Keys + (update.Keys - pending)
      invariant forall k :: k in update && k !in pending ==> k in r && r[k] == update[k]
      invariant forall k :: k in base && k !in update ==> r[k] == base[k]
      invariant forall k :: k in base && k in pending ==> r[k] == base[k]
      decreases pending
    {
      var k :| k in pending;
      r := r[k := update[k]];
      pending := pending - {k};
    }
  }

  /** Merging nothing changes nothing. */
  lemma MergeEmpty(base: Object)
    ensures Merge(base, map[]) == base
  {
  }

  /** Merging the same update twice is the same as merging it once. */
  lemma MergeIdempotent(base: Object, update: Object)
    ensures Merge(Merge(base, update), update) == Merge(base, update)
  {
  }

  /** Two successive merges are one merge of the combined update, in which the
      later update wins. */
  lemma MergeSequential(base: Object, first: Object, second: Object)
    ensures Merge(Merge(base, first), second) == Merge(base, Merge(first, second))
  {
  }
}

=== FILE: ltr_query_builder.dfy ===
/** `LTRQueryBuilder`: a base query plus a rescore configuration that the
    builder turns into a top-level `"rescore"` entry of the request JSON. */
module LtrQueryBuilder {
  import opened Outcomes
  import opened Json
  import opened QueryDsl
  import opened Rescoring

  /** `RescoreConfig`; the constructor always gives it a non-nil `Params`. */
  datatype RescoreConfig = RescoreConfig(windowSize: int, model: string, params: Object)

  datatype LTRQueryBuilder = LTRQueryBuilder(baseQuery: Option<Query>, rescoreConf: RescoreConfig)

  function NewLTRQueryBuilder(baseQuery: Option<Query>, model: string): (b: LTRQueryBuilder)
    ensures b.baseQuery == baseQuery
    ensures b.rescoreConf.windowSize == 1000 && b.rescoreConf.model == model && b.rescoreConf.params == map[]
  {
    LTRQueryBuilder(baseQuery, RescoreConfig(DefaultWindowSize, model, map[]))
  }

  /** Changes the window size and nothing else. */
  function WithWindowSize(b: LTRQueryBuilder, size: int): (r: LTRQueryBuilder)
    ensures r.rescoreConf.windowSize == size
    ensures r.baseQuery == b.baseQuery
    ensures r.rescoreConf.model == b.rescoreConf.model && r.rescoreConf.params == b.rescoreConf.params
  {
    b.(rescoreConf := b.rescoreConf.(windowSize := size))
  }

  /** Copies every entry of `params` into the configured params: keys of
      `params` take its values, other keys keep theirs; nothing else changes. */
  function WithParams(b: LTRQueryBuilder, params: Object): (r: LTRQueryBuilder)
    ensures r.rescoreConf.params.Keys == b.rescoreConf.params.Keys + params.Keys
    ensures forall k :: k in params ==> r.rescoreConf.params[k] == params[k]
    ensures forall k :: k in b.rescoreConf.params && k !in params ==> r.rescoreConf.params[k] == b.rescoreConf.params[k]
    ensures r.baseQuery == b.baseQuery
    ensures r.rescoreConf.windowSize == b.rescoreConf.windowSize && r.rescoreConf.model == b.rescoreConf.model
  {
    b.(rescoreConf := b.rescoreConf.(params := Merge(b.rescoreConf.params, params)))
  }

  /** The `"rescore"` value `Build` writes, as a literal nested map: it is the
      JSON form of the shared `Rescore` structure with a single `"sltr"`
      entry. */
  function RescoreJson(conf: RescoreConfig): (j: Json)
    ensures j == EncodeRescore(AsRescore(conf))
  {
    var m := map["sltr" := Sltr(Some(conf.params), conf.model)];
    assert (map k | k in m :: EncodeSltr(m[k])) == map["sltr" := EncodeSltr(m["sltr"])];
    JObj(map[
      "window_size" := JNum(conf.windowSize),
      "query" := JObj(map[
        "rescore_query" := JObj(map[
          "sltr" := JObj(map["params" := JObj(conf.params), "model" := JStr(conf.model)])])])])
  }

  /** The configuration as the shared `Rescore` structure: one `"sltr"` entry. */
  function AsRescore(conf: RescoreConfig): Rescore {
    Rescore(conf.windowSize, Some(map["sltr" := Sltr(Some(conf.params), conf.model)]))
  }

  /** The configuration can be read back from the hand-built map. */
  lemma RescoreJsonDecodes(conf: RescoreConfig)
    ensures DecodeRescore(RescoreJson(conf)) == Some(AsRescore(conf))
  {
    DecodeEncodeRescore(AsRescore(conf));
  }

  /** `Build`: fails exactly when marshalling the base request fails; otherwise
      the output is the base request's object with `"rescore"` set to the
      configured window size, params and model, and every other top-level key
      unchanged. `encode` is `json.Marshal` of a `search.Request` read back as
      a map. */
  function Build(b: LTRQueryBuilder, encode: Request -> Result<Object, string>): (r: Result<Json, BuildError>)
    ensures r.Failure? <==> encode(Request(b.baseQuery)).Failure?
    ensures r.Failure? ==> r.error == MarshalBase(encode(Request(b.baseQuery)).error)
    ensures r.Success? ==>
      var base := encode(Request(b.baseQuery)).value;
      && r.value.JObj?
      && r.value.fields.Keys == base.Keys + {"rescore"}
      && r.value.fields["rescore"] == EncodeRescore(AsRescore(b.rescoreConf))
      && DecodeRescore(r.value.fields["rescore"]) == Some(AsRescore(b.rescoreConf))
      && forall k :: k in base && k != "rescore" ==> r.value.fields[k] == base[k]
  {
    RescoreJsonDecodes(b.rescoreConf);
    Overlay(encode(Request(b.baseQuery)), Some(RescoreJson(b.rescoreConf)))
  }

  /** Merging an empty map is the identity on the builder. */
  lemma WithParamsEmpty(b: LTRQueryBuilder)
    ensures WithParams(b, map[]) == b
  {
    MergeEmpty(b.rescoreConf.params);
  }

  /** Applying the same params twice equals applying them once. */
  lemma WithParamsIdempotent(b: LTRQueryBuilder, params: Object)
    ensures WithParams(WithParams(b, params), params) == WithParams(b, params)
  {
    MergeIdempotent(b.rescoreConf.params, params);
  }

  /** Two calls equal one call with the combined params, the later winning. */
  lemma WithParamsSequential(b: LTRQueryBuilder, first: Object, second: Object)
    ensures WithParams(WithParams(b, first), second) == WithParams(b, Merge(first, second))
  {
    MergeSequential(b.rescoreConf.params, first, second);
  }

  /** The two setters touch disjoint fields, so their order does not matter;
      of two window sizes the last one wins. */
  lemma SettersCommute(b: LTRQueryBuilder, size: int, size': int, params: Object)
    ensures WithParams(WithWindowSize(b, size), params) == WithWindowSize(WithParams(b, params), size)
    ensures WithWindowSize(WithWindowSize(b, size), size') == WithWindowSize(b, size')
  {
  }
}

=== FILE: outcomes.dfy ===
/** Failure-carrying wrappers shared by every module of the model. */
module Outcomes {

  /** A Go pointer, nil-able map or optional value: `None` is nil. */
  datatype Option<+T> = None | Some(value: T)

  /** A Go `(value, error)` pair where exactly one side is meaningful. */
  datatype Result<+T, +E> = Success(value: T) | Failure(error: E)

  /** A Go `error` return on its own: `Pass` is nil. */
  datatype Outcome<+E> = Pass | Fail(error: E)
}

=== FILE: query_dsl.dfy ===
/** The part of the typed query DSL (`types.Query`) the helpers build, and the
    search request that wraps a query. */
module QueryDsl {
  import opened Outcomes

  /** `types.MatchQuery` with only `Query` set. */
  datatype MatchQuery = MatchQuery(query: string)

  /** `types.MultiMatchQuery` with `Query` and `Fields`. */
  datatype MultiMatchQuery = MultiMatchQuery(query: string, fields: seq<string>)

  /** `types.Query`: each kind of query is a field that is unset (nil, or an
      empty map) unless the query is of that kind. */
  datatype Query = Query(
    matchAll: bool,
    matchFields: map<string, MatchQuery>,
    boolQuery: Option<BoolQuery>,
    multiMatch: Option<MultiMatchQuery>)

  /** `types.BoolQuery`. */
  datatype BoolQuery = BoolQuery(
    must: seq<Query>,
    should: seq<Query>,
    filter: seq<Query>,
    minimumShouldMatch: Option<string>)

  /** `search.Request` with only its `Query` field, which may be nil. */
  datatype Request = Request(query: Option<Query>)

  datatype Kind = MatchAllKind | MatchKind | BoolKind | MultiMatchKind

  /** The kinds whose field is set. */
  function Kinds(q: Query): set<Kind> {
    (if q.matchAll then {MatchAllKind} else {})
    + (if |q.matchFields| > 0 then {MatchKind} else {})
    + (if q.boolQuery.Some? then {BoolKind} else {})
    + (if q.multiMatch.Some? then {MultiMatchKind} else {})
  }

  /** `types.Query{MatchAll: types.NewMatchAllQuery()}`. */
  function MatchAll(): (q: Query)
    ensures Kinds(q) == {MatchAllKind}
  {
    Query(true, map[], None, None)
  }

  /** A match query on one field and nothing else. */
  function CreateMatchQuery(field: string, value: string): (q: Query)
    ensures Kinds(q) == {MatchKind}
    ensures q.matchFields.Keys == {field} && q.matchFields[field] == MatchQuery(value)
  {
    Query(false, map[field := MatchQuery(value)], None, None)
  }

  /** A bool query that must match everything and keeps the filters in the
      given order; with no filters it still has its one `match_all`. */
  function CreateBoolWithFilterQuery(filters: seq<Query>): (q: Query)
    ensures Kinds(q) == {BoolKind}
    ensures q.boolQuery.value.must == [MatchAll()]
    ensures q.boolQuery.value.filter == filters
    ensures q.boolQuery.value.should == [] && q.boolQuery.value.minimumShouldMatch == None
  {
    Query(false, map[], Some(BoolQuery([MatchAll()], [], filters, None)), None)
  }

  /** A multi-match query with the fields in the given order. */
  function CreateMultiMatchQuery(query: string, fields: seq<string>): (q: Query)
    ensures Kinds(q) == {MultiMatchKind}
    ensures q.multiMatch == Some(MultiMatchQuery(query, fields))
  {
    Query(false, map[], None, Some(MultiMatchQuery(query, fields)))
  }

  /** A bool query that passes its four parts through unchanged. */
  function CreateComplexBoolQuery(must: seq<Query>, should: seq<Query>, filter: seq<Query>, minimumShouldMatch: Option<string>): (q: Query)
    ensures Kinds(q) == {BoolKind}
    ensures q.boolQuery == Some(BoolQuery(must, should, filter, minimumShouldMatch))
  {
    Query(false, map[], Some(BoolQuery(must, should, filter, minimumShouldMatch)), None)
  }

  /** The filter-only helper is the complex helper with a single `match_all`
      in `must` and nothing in `should`. */
  lemma BoolWithFilterIsComplexBool(filters: seq<Query>)
    ensures CreateBoolWithFilterQuery(filters) == CreateComplexBoolQuery([MatchAll()], [], filters, None)
  {
  }
}

=== FILE: rescoring.dfy ===
/** The rescore structures shared by `CustomSearchRequest` and
    `SimpleLTRQueryBuilder` (`SLTR`, `RescoreQuery`, `Rescore`, declared alike
    in both files), their JSON form, and the step all builders share: marshal
    the base request, read it back as a map, and set its `"rescore"` key. */
module Rescoring {
  import opened Outcomes
  import opened Json

  /** `SLTR`; a nil `Params` map is `None`. */
  datatype Sltr = Sltr(params: Option<Object>, model: string)

  /** `Rescore` with its `Query.RescoreQuery` map inlined; a nil map is `None`. */
  datatype Rescore = Rescore(windowSize: int, rescoreQuery: Option<map<string, Sltr>>)

  const DefaultWindowSize: int := 1000

  /** The rescore every constructor starts from: window 1000 and a single
      `"sltr"` entry with empty (non-nil) params and the given model. */
  function DefaultRescore(model: string): Rescore {
    Rescore(DefaultWindowSize, Some(map["sltr" := Sltr(Some(map[]), model)]))
  }

  /** `encoding/json` of a possibly nil map: nil becomes `null`. */
  function EncodeObject(m: Option<Object>): Json {
    if m.Some? then JObj(m.value) else JNull
  }

  /** `{"params": …, "model": …}`, as the struct tags of `SLTR` name them. */
  function EncodeSltr(s: Sltr): Json {
    JObj(map["params" := EncodeObject(s.params), "model" := JStr(s.model)])
  }

  /** `{"window_size": …, "query": {"rescore_query": {…}}}`: the keys the
      struct tags name, a nil map as `null`, and one encoded `SLTR` per entry
      of the map, each reading back as that entry. */
  function EncodeRescore(r: Rescore): (j: Json)
    ensures j.JObj? && j.fields.Keys == {"window_size", "query"}
    ensures j.fields["window_size"] == JNum(r.windowSize)
    ensures j.fields["query"].JObj? && j.fields["query"].fields.Keys == {"rescore_query"}
    ensures r.rescoreQuery.None? <==> j.fields["query"].fields["rescore_query"] == JNull
    ensures r.rescoreQuery.Some? ==>
      var rq := j.fields["query"].fields["rescore_query"];
      && rq.JObj? && rq.fields.Keys == r.rescoreQuery.value.Keys
      && forall k :: k in rq.fields ==> DecodeSltr(rq.fields[k]) == Some(r.rescoreQuery.value[k])
  {
    var rq :=
      if r.rescoreQuery.Some?
      then JObj(map k | k in r.rescoreQuery.value :: EncodeSltr(r.rescoreQuery.value[k]))
      else JNull;
    JObj(map["window_size" := JNum(r.windowSize), "query" := JObj(map["rescore_query" := rq])])
  }

  function DecodeObject(j: Json): Option<Option<Object>> {
    match j
    case JNull => Some(None)
    case JObj(m) => Some(Some(m))
    case _ => None
  }

  function DecodeSltr(j: Json): Option<Sltr> {
    if j.JObj? && "params" in j.fields && "model" in j.fields
      && j.fields["model"].JStr? && DecodeObject(j.fields["params"]).Some?
    then Some(Sltr(DecodeObject(j.fields["params"]).value, j.fields["model"].s))
    else None
  }

  /** Reads a rescore back from its JSON form, as `json.Unmarshal` into a
      `Rescore` would; `None` when the shape does not fit. */
  function DecodeRescore(j: Json): Option<Rescore> {
    if j.JObj? && "window_size" in j.fields && j.fields["window_size"].JNum?
      && "query" in j.fields && j.fields["query"].JObj?
      && "rescore_query" in j.fields["query"].fields
    then
      var rq := j.fields["query"].fields["rescore_query"];
      if rq.JNull? then Some(Rescore(j.fields["window_size"].n, None))
      else if rq.JObj? && forall k :: k in rq.fields ==> DecodeSltr(rq.fields[k]).Some?
      then Some(Rescore(j.fields["window_size"].n, Some(map k | k in rq.fields :: DecodeSltr(rq.fields[k]).value)))
      else None
    else None
  }

  lemma DecodeEncodeSltr(s: Sltr)
    ensures DecodeSltr(EncodeSltr(s)) == Some(s)
  {
  }

  /** The JSON form loses nothing: reading it back gives the rescore,
      including nil maps. */
  lemma DecodeEncodeRescore(r: Rescore)
    ensures DecodeRescore(EncodeRescore(r)) == Some(r)
  {
    if r.rescoreQuery.Some? {
      var m := r.rescoreQuery.value;
      var em := map k | k in m :: EncodeSltr(m[k]);
      forall k | k in em
        ensures DecodeSltr(em[k]) == Some(m[k])
      {
        DecodeEncodeSltr(m[k]);
      }
      assert (map k | k in em :: DecodeSltr(em[k]).value) == m;
    }
  }

  /** Go runtime panics the builders can reach. */
  datatype Fault = NilPointerDereference | NilMapAssignment

  datatype BuildError = MarshalBase(cause: string) | Panic(fault: Fault)

  /** Marshal the base request (`base` is what `json.Marshal` followed by
      `json.Unmarshal` into a map yields), set `"rescore"` when there is one,
      and marshal the map. The result is the JSON value of the output. */
  function Overlay(base: Result<Object, string>, rescore: Option<Json>): (r: Result<Json, BuildError>)
    ensures r.Failure? <==> base.Failure?
    ensures base.Failure? ==> r.error == MarshalBase(base.error)
    ensures base.Success? && rescore.None? ==> r.value == JObj(base.value)
    ensures base.Success? && rescore.Some? ==>
      && r.value.JObj?
      && r.value.fields.Keys == base.value.Keys + {"rescore"}
      && r.value.fields["rescore"] == rescore.value
      && forall k :: k in base.value && k != "rescore" ==> r.value.fields[k] == base.value[k]
  {
    match base
    case Failure(c) => Failure(MarshalBase(c))
    case Success(m) => Success(JObj(if rescore.Some? then Put(m, "rescore", rescore.value) else m))
  }
}

=== FILE: search.dfy ===
/** The query construction of the search program: the string template
    `buildJsonQuery`, and `CustomSearchRequest`, a typed request with an
    optional rescore that its `MarshalJSON` writes under `"rescore"`. */
module Search {
  import opened Outcomes
  import opened Json
  import opened QueryDsl
  import opened Rescoring
  import SimpleLtrQueryBuilder

  /** The three fixed pieces of the template, around the keyword hole and the
      model hole. Each hole sits between two double quotes; the middle piece
      carries the fixed window size and the empty params. */
  const Quote: string := "\""
  const WindowSizeField: string := "\"window_size\": 1000,"
  const ParamsField: string := "\"params\": {},"
  const Head: string :=
    "{\n  \"query\": {\n    \"bool\": {\n      \"must\": {\"match_all\": {}},\n      \"filter\": {\"match\": {\"title\": " + Quote
  const MiddleBeforeWindow: string := "}}\n    }\n  },\n  \"rescore\": {\n    "
  const MiddleBeforeParams: string := "\n    \"query\": {\n      \"rescore_query\": {\n        \"sltr\": {\n          "
  const MiddleBeforeModel: string := "\n          \"model\": "
  const MiddleOpen: string := Quote + MiddleBeforeWindow
  const MiddleClose: string := MiddleBeforeModel + Quote
  const Middle: string := MiddleOpen + WindowSizeField + MiddleBeforeParams + ParamsField + MiddleClose
  const Tail: string := Quote + "\n        }\n      }\n    }\n  }\n}"

  /** Plain concatenation: the keyword and the model are inserted verbatim,
      without JSON escaping. */
  function BuildJsonQuery(keyword: string, modelName: string): (q: string)
    ensures |q| == |Head| + |keyword| + |Middle| + |modelName| + |Tail|
  {
    Head + keyword + Middle + modelName + Tail
  }

  /** The position of the first `"` in `s`, or `|s|` when there is none. */
  function IndexOfQuote(s: string): (i: nat)
    ensures i <= |s|
    ensures i < |s| ==> s[i] == '"'
    ensures forall j :: 0 <= j < i ==> s[j] != '"'
    decreases |s|
  {
    if |s| == 0 || s[0] == '"' then 0 else 1 + IndexOfQuote(s[1..])
  }

  /** Reads the two holes back out of a text made of a head `h`, a middle
      piece `m` and a tail `t`: the first hole ends at the first `"` after the
      head, where the middle piece must start. */
  function SplitWith(q: string, h: string, m: string, t: string): Option<(string, string)> {
    if |q| < |h| + |m| + |t| || q[..|h|] != h || q[|q| - |t|..] != t then None
    else
      var inner := q[|h| .. |q| - |t|];
      var p := IndexOfQuote(inner);
      if p + |m| <= |inner| && inner[p .. p + |m|] == m
      then Some((inner[..p], inner[p + |m|..]))
      else None
  }

  /** Reads a keyword and a model back out of a query text. */
  function SplitQuery(q: string): Option<(string, string)> {
    SplitWith(q, Head, Middle, Tail)
  }

  predicate NoQuote(s: string) {
    forall i :: 0 <= i < |s| ==> s[i] != '"'
  }

  /** Splitting a concatenation at the first `"`, when the left part has none
      and the right part starts with one. */
  lemma SplitAtQuote(keyword: string, rest: string)
    requires NoQuote(keyword) && |rest| > 0 && rest[0] == '"'
    ensures IndexOfQuote(keyword + rest) == |keyword|
  {
    var s := keyword + rest;
    assert s[|keyword|] == '"';
  }

  /** The slices `SplitQuery` takes, for any pieces `h`, `m`, `t`. */
  lemma {:induction false} Pieces<T>(h: seq<T>, k: seq<T>, m: seq<T>, md: seq<T>, t: seq<T>)
    ensures var q := h + k + m + md + t;
      && q[..|h|] == h
      && q[|q| - |t|..] == t
      && q[|h| .. |q| - |t|] == k + (m + md)
  {
    var q := h + k + m + md + t;
    assert q == h + (k + (m + md)) + t;
  }

  lemma {:induction false} InnerPieces<T>(k: seq<T>, m: seq<T>, md: seq<T>)
    ensures var inner := k + (m + md);
      && inner[..|k|] == k
      && inner[|k| .. |k| + |m|] == m
      && inner[|k| + |m|..] == md
  {
  }

  /** For any pieces whose middle starts with `"`, a first hole without `"`
      and any second hole are read back. */
  lemma SplitWithRoundTrip(h: string, k: string, m: string, md: string, t: string)
    requires NoQuote(k) && |m| > 0 && m[0] == '"'
    ensures SplitWith(h + k + m + md + t, h, m, t) == Some((k, md))
  {
    Pieces(h, k, m, md, t);
    InnerPieces(k, m, md);
    assert (m + md)[0] == '"';
    SplitAtQuote(k, m + md);
  }

  /** As long as the keyword holds no `"`, both inputs can be read back from
      the query text: the template loses nothing. */
  lemma SplitBuildJsonQuery(keyword: string, modelName: string)
    requires NoQuote(keyword)
    ensures SplitQuery(BuildJsonQuery(keyword, modelName)) == Some((keyword, modelName))
  {
    assert Middle[0] == '"' by {
      assert MiddleOpen[0] == '"';
    }
    SplitWithRoundTrip(Head, keyword, Middle, modelName, Tail);
  }

  lemma ShiftHole<T>(h: seq<T>, x: seq<T>, m: seq<T>, y: seq<T>, z: seq<T>, t: seq<T>)
    ensures h + (x + m + y) + m + z + t == h + x + m + (y + m + z) + t
  {
  }

  /** Because the holes are not escaped, a keyword that contains the middle
      piece produces the same text as a different keyword and model: the
      output does not determine the inputs in general. */
  lemma HolesAreUnescaped(x: string, y: string, z: string)
    ensures BuildJsonQuery(x + Middle + y, z) == BuildJsonQuery(x, y + Middle + z)
    ensures x + Middle + y != x
  {
    ShiftHole(Head, x, Middle, y, z, Tail);
    assert |x + Middle + y| > |x|;
  }

  /** Where the middle piece and its two fixed fields sit, for any pieces. */
  lemma {:induction false} FieldOffsets<T>(h: seq<T>, k: seq<T>, a: seq<T>, w: seq<T>, b: seq<T>,
                                           p: seq<T>, c: seq<T>, md: seq<T>, t: seq<T>)
    ensures var mid := a + w + b + p + c;
      var q := h + k + mid + md + t;
      var o := |h| + |k|;
      && q[o .. o + |mid|] == mid
      && q[o + |a| .. o + |a| + |w|] == w
      && q[o + |a| + |w| + |b| .. o + |a| + |w| + |b| + |p|] == p
  {
    var mid := a + w + b + p + c;
    var q := h + k + mid + md + t;
    var o := |h| + |k|;
    assert q == (h + k) + mid + (md + t);
    assert q[o .. o + |mid|] == mid;
    assert q[o + |a| .. o + |a| + |w|] == mid[|a| .. |a| + |w|];
    assert q[o + |a| + |w| + |b| .. o + |a| + |w| + |b| + |p|] == mid[|a| + |w| + |b| .. |a| + |w| + |b| + |p|];
  }

  /** Whatever the inputs, the text between the two holes is the middle piece,
      which fixes `"window_size": 1000` and `"params": {}`. */
  lemma TemplateFixesWindowAndParams(keyword: string, modelName: string)
    ensures var q := BuildJsonQuery(keyword, modelName);
      var o := |Head| + |keyword|;
      var w := o + |MiddleOpen|;
      var p := w + |WindowSizeField| + |MiddleBeforeParams|;
      && q[o .. o + |Middle|] == Middle
      && q[w .. w + |WindowSizeField|] == WindowSizeField
      && q[p .. p + |ParamsField|] == ParamsField
  {
    FieldOffsets(Head, keyword, MiddleOpen, WindowSizeField, MiddleBeforeParams, ParamsField, MiddleClose, modelName, Tail);
  }

  /** `CustomSearchRequest`: the embedded `*search.Request` (nil-able) and the
      optional rescore. */
  datatype CustomSearchRequest = CustomSearchRequest(request: Option<Request>, rescorePart: Option<Rescore>)

  /** A bool query that must match everything and is filtered by a match on
      `title`, with the default rescore for the model. */
  function NewCustomSearchRequest(keyword: string, modelName: string): (r: CustomSearchRequest)
    ensures r.request == Some(Request(Some(CreateBoolWithFilterQuery([CreateMatchQuery("title", keyword)]))))
    ensures r.rescorePart == Some(DefaultRescore(modelName))
  {
    var q := Query(
      false, map[],
      Some(BoolQuery([Query(true, map[], None, None)], [], [Query(false, map["title" := MatchQuery(keyword)], None, None)], None)),
      None);
    CustomSearchRequest(Some(Request(Some(q))), Some(Rescore(1000, Some(map["sltr" := Sltr(Some(map[]), modelName)]))))
  }

  /** `MarshalJSON`. A nil embedded request marshals as `null`, which reads
      back as a nil map: setting `"rescore"` on it panics, and without a rescore
      the output is `null`. Otherwise the output is the base request's object
      with `"rescore"` added or overwritten exactly when there is a rescore,
      every other key unchanged. */
  function MarshalJSON(r: CustomSearchRequest, encode: Request -> Result<Object, string>): (out: Result<Json, BuildError>)
    ensures r.request.None? ==>
      out == if r.rescorePart.Some? then Failure(Panic(NilMapAssignment)) else Success(JNull)
    ensures r.request.Some? ==> (out.Failure? <==> encode(r.request.value).Failure?)
    ensures r.request.Some? && out.Success? ==>
      var base := encode(r.request.value).value;
      && out.value.JObj?
      && ("rescore" in out.value.fields <==> r.rescorePart.Some? || "rescore" in base)
      && (r.rescorePart.None? ==> out.value == JObj(base))
      && (r.rescorePart.Some? ==>
            && out.value.fields.Keys == base.Keys + {"rescore"}
            && out.value.fields["rescore"] == EncodeRescore(r.rescorePart.value)
            && DecodeRescore(out.value.fields["rescore"]) == r.rescorePart)
      && forall k :: k in base && k != "rescore" ==> k in out.value.fields && out.value.fields[k] == base[k]
  {
    if r.request.None? then
      if r.rescorePart.Some? then Failure(Panic(NilMapAssignment)) else Success(JNull)
    else if r.rescorePart.Some? then
      DecodeEncodeRescore(r.rescorePart.value);
      Overlay(encode(r.request.value), Some(EncodeRescore(r.rescorePart.value)))
    else
      Overlay(encode(r.request.value), None)
  }

  /** With a request present, `MarshalJSON` and the simple builder's `Build`
      produce the same output for the same query and rescore. */
  lemma MarshalJSONMatchesSimpleBuilder(q: Option<Query>, rescore: Option<Rescore>, encode: Request -> Result<Object, string>)
    ensures MarshalJSON(CustomSearchRequest(Some(Request(q)), rescore), encode)
         == SimpleLtrQueryBuilder.Build(SimpleLtrQueryBuilder.SimpleLTRQueryBuilder(q, rescore), encode)
  {
  }

  /** In particular the custom request for a keyword marshals exactly as the
      simple builder over the helpers' query for that keyword. */
  lemma NewCustomSearchRequestMatchesSimpleBuilder(keyword: string, modelName: string, encode: Request -> Result<Object, string>)
    ensures MarshalJSON(NewCustomSearchRequest(keyword, modelName), encode)
         == SimpleLtrQueryBuilder.Build(
              SimpleLtrQueryBuilder.NewSimpleLTRQueryBuilder(
                Some(CreateBoolWithFilterQuery([CreateMatchQuery("title", keyword)])), modelName),
              encode)
  {
  }
}

=== FILE: simple_ltr_query_builder.dfy ===
/** `SimpleLTRQueryBuilder`: a base query plus an optional `Rescore` that
    `Build` writes under the top-level `"rescore"` key. The setters mutate
    through the `RescorePart` pointer, so a nil pointer or a nil map panics. */
module SimpleLtrQueryBuilder {
  import opened Outcomes
  import opened Json
  import opened QueryDsl
  import opened Rescoring

  datatype SimpleLTRQueryBuilder = SimpleLTRQueryBuilder(baseQuery: Option<Query>, rescorePart: Option<Rescore>)

  function NewSimpleLTRQueryBuilder(baseQuery: Option<Query>, modelName: string): (b: SimpleLTRQueryBuilder)
    ensures b.baseQuery == baseQuery && b.rescorePart.Some?
    ensures b.rescorePart.value.windowSize == 1000
    ensures b.rescorePart.value.rescoreQuery == Some(map["sltr" := Sltr(Some(map[]), modelName)])
  {
    SimpleLTRQueryBuilder(baseQuery, Some(DefaultRescore(modelName)))
  }

  /** Changes only `RescorePart.WindowSize`; panics on a nil `RescorePart`. */
  function WithWindowSize(s: SimpleLTRQueryBuilder, size: int): (r: Result<SimpleLTRQueryBuilder, Fault>)
    ensures r.Failure? <==> s.rescorePart.None?
    ensures r.Failure? ==> r.error == NilPointerDereference
    ensures r.Success? ==>
      && r.value.baseQuery == s.baseQuery
      && r.value.rescorePart.Some?
      && r.value.rescorePart.value.windowSize == size
      && r.value.rescorePart.value.rescoreQuery == s.rescorePart.value.rescoreQuery
  {
    if s.rescorePart.None? then Failure(NilPointerDereference)
    else Success(s.(rescorePart := Some(s.rescorePart.value.(windowSize := size))))
  }

  /** The `"sltr"` entry as Go reads it: a missing key (or a nil map) reads as
      the zero `SLTR`, with nil params and an empty model. */
  function CurrentSltr(rp: Rescore): Sltr {
    if rp.rescoreQuery.Some? && "sltr" in rp.rescoreQuery.value then rp.rescoreQuery.value["sltr"]
    else Sltr(None, "")
  }

  /** The params as a map, nil read as empty. */
  function ParamsOf(sltr: Sltr): Object {
    if sltr.params.Some? then sltr.params.value else map[]
  }

  /** Replaces nil params by an empty map, copies `params` into them, and
      stores the entry back under `"sltr"`. Panics on a nil `RescorePart`, and
      on a nil `RescoreQuery` map at the store. */
  function WithParams(s: SimpleLTRQueryBuilder, params: Object): (r: Result<SimpleLTRQueryBuilder, Fault>)
    ensures s.rescorePart.None? ==> r == Failure(NilPointerDereference)
    ensures s.rescorePart.Some? && s.rescorePart.value.rescoreQuery.None? ==> r == Failure(NilMapAssignment)
    ensures r.Success? <==> s.rescorePart.Some? && s.rescorePart.value.rescoreQuery.Some?
    ensures r.Success? ==> r.value.rescorePart.Some?
    ensures r.Success? ==>
      var before := s.rescorePart.value;
      var after := r.value.rescorePart.value;
      var prior := CurrentSltr(before);
      && r.value.baseQuery == s.baseQuery
      && after.windowSize == before.windowSize
      && after.rescoreQuery.Some?
      && after.rescoreQuery.value.Keys == before.rescoreQuery.value.Keys + {"sltr"}
      && (forall k :: k in before.rescoreQuery.value && k != "sltr" ==>
            after.rescoreQuery.value[k] == before.rescoreQuery.value[k])
      && after.rescoreQuery.value["sltr"].model == prior.model
      && after.rescoreQuery.value["sltr"].params.Some?
      && after.rescoreQuery.value["sltr"].params.value.Keys == ParamsOf(prior).Keys + params.Keys
      && (forall k :: k in params ==> after.rescoreQuery.value["sltr"].params.value[k] == params[k])
      && (forall k :: k in ParamsOf(prior) && k !in params ==>
            after.rescoreQuery.value["sltr"].params.value[k] == ParamsOf(prior)[k])
  {
    if s.rescorePart.None? then Failure(NilPointerDereference)
    else
      var rp := s.rescorePart.value;
      var sltr := CurrentSltr(rp);
      var merged := Merge(ParamsOf(sltr), params);
      if rp.rescoreQuery.None? then Failure(NilMapAssignment)
      else
        var rq := rp.rescoreQuery.value["sltr" := Sltr(Some(merged), sltr.model)];
        Success(s.(rescorePart := Some(rp.(rescoreQuery := Some(rq)))))
  }

  /** `Build`: fails exactly when marshalling the base request fails; adds
      `"rescore"` exactly when `RescorePart` is set (its JSON form, which reads
      back as the same rescore), and otherwise outputs the base request's
      object unchanged; no other top-level key changes. */
  function Build(s: SimpleLTRQueryBuilder, encode: Request -> Result<Object, string>): (r: Result<Json, BuildError>)
    ensures r.Failure? <==> encode(Request(s.baseQuery)).Failure?
    ensures r.Failure? ==> r.error == MarshalBase(encode(Request(s.baseQuery)).error)
    ensures r.Success? ==>
      var base := encode(Request(s.baseQuery)).value;
      && r.value.JObj?
      && ("rescore" in r.value.fields <==> s.rescorePart.Some? || "rescore" in base)
      && (s.rescorePart.None? ==> r.value == JObj(base))
      && (s.rescorePart.Some? ==>
            && r.value.fields.Keys == base.Keys + {"rescore"}
            && r.value.fields["rescore"] == EncodeRescore(s.rescorePart.value)
            && DecodeRescore(r.value.fields["rescore"]) == s.rescorePart)
      && forall k :: k in base && k != "rescore" ==> k in r.value.fields && r.value.fields[k] == base[k]
  {
    if s.rescorePart.Some? then
      DecodeEncodeRescore(s.rescorePart.value);
      Overlay(encode(Request(s.baseQuery)), Some(EncodeRescore(s.rescorePart.value)))
    else
      Overlay(encode(Request(s.baseQuery)), None)
  }

  /** On a builder whose `"sltr"` params are already a map, merging nothing is
      the identity. */
  lemma WithParamsEmpty(s: SimpleLTRQueryBuilder)
    requires s.rescorePart.Some? && s.rescorePart.value.rescoreQuery.Some?
    requires "sltr" in s.rescorePart.value.rescoreQuery.value
    requires s.rescorePart.value.rescoreQuery.value["sltr"].params.Some?
    ensures WithParams(s, map[]) == Success(s)
  {
    var rp := s.rescorePart.value;
    MergeEmpty(ParamsOf(CurrentSltr(rp)));
    assert rp.rescoreQuery.value["sltr" := CurrentSltr(rp)] == rp.rescoreQuery.value;
  }

  /** Nil params are not left alone even by an empty merge: they become an
      empty map, which marshals as `{}` instead of `null`. */
  lemma WithParamsMaterializesNilParams(s: SimpleLTRQueryBuilder)
    requires s.rescorePart.Some? && s.rescorePart.value.rescoreQuery.Some?
    requires "sltr" in s.rescorePart.value.rescoreQuery.value
    requires s.rescorePart.value.rescoreQuery.value["sltr"].params.None?
    ensures WithParams(s, map[]).Success?
    ensures WithParams(s, map[]) != Success(s)
    ensures WithParams(s, map[]).value.rescorePart.value.rescoreQuery.value["sltr"].params == Some(map[])
  {
  }

  /** Applying the same params twice equals applying them once. */
  lemma WithParamsIdempotent(s: SimpleLTRQueryBuilder, params: Object)
    requires WithParams(s, params).Success?
    ensures WithParams(WithParams(s, params).value, params) == WithParams(s, params)
  {
    var rp := s.rescorePart.value;
    var once := WithParams(s, params).value;
    MergeIdempotent(ParamsOf(CurrentSltr(rp)), params);
    var rq := once.rescorePart.value.rescoreQuery.value;
    assert rq["sltr" := CurrentSltr(once.rescorePart.value)] == rq;
  }

  /** From the constructor, a params call and then a window-size call both
      succeed; the `"sltr"` entry stays the only one, keeps its model, and holds
      exactly the given params. */
  lemma SettersKeepSingleSltr(baseQuery: Option<Query>, modelName: string, size: int, params: Object)
    ensures var b := NewSimpleLTRQueryBuilder(baseQuery, modelName);
      && WithParams(b, params).Success?
      && WithWindowSize(WithParams(b, params).value, size).Success?
      && var r := WithWindowSize(WithParams(b, params).value, size).value.rescorePart.value;
      && r.windowSize == size
      && r.rescoreQuery.value.Keys == {"sltr"}
      && r.rescoreQuery.value["sltr"] == Sltr(Some(params), modelName)
  {
    MergeEmpty(params);
    assert Merge(map[], params) == params;
  }
}

=== FILE: string_ltr_query_builder.dfy ===
/** The string-template builder: the keyword and the model are spliced into a
    fixed JSON text without escaping. Its template is written out here as in
    its own source; `BuildIsSearchTemplate` shows it is the very text the
    search program's `buildJsonQuery` writes. */
module StringLtrQueryBuilder {
  import opened Outcomes
  import Search

  /** The template around the keyword hole and the model hole. The middle
      piece is written in segments: the fixed window-size and params fields,
      and the text around them. */
  const Head: string :=
    "{\n  \"query\": {\n    \"bool\": {\n      \"must\": {\"match_all\": {}},\n      \"filter\": {\"match\": {\"title\": \""
  const MiddleOpen: string := "\"}}\n    }\n  },\n  \"rescore\": {\n    "
  const WindowSizeField: string := "\"window_size\": 1000,"
  const MiddleBeforeParams: string := "\n    \"query\": {\n      \"rescore_query\": {\n        \"sltr\": {\n          "
  const ParamsField: string := "\"params\": {},"
  const MiddleClose: string := "\n          \"model\": \""
  const Middle: string := MiddleOpen + WindowSizeField + MiddleBeforeParams + ParamsField + MiddleClose
  const Tail: string := "\"\n        }\n      }\n    }\n  }\n}"

  lemma HeadIsSearchHead()
    ensures Head == Search.Head
  {
  }

  lemma MiddleOpenIsSearchMiddleOpen()
    ensures MiddleOpen == Search.MiddleOpen
  {
  }

  lemma FieldsAreSearchFields()
    ensures WindowSizeField == Search.WindowSizeField
    ensures MiddleBeforeParams == Search.MiddleBeforeParams
    ensures ParamsField == Search.ParamsField
  {
  }

  lemma MiddleCloseIsSearchMiddleClose()
    ensures MiddleClose == Search.MiddleClose
  {
  }

  lemma MiddleIsSearchMiddle()
    ensures Middle == Search.Middle
  {
    MiddleOpenIsSearchMiddleOpen();
    FieldsAreSearchFields();
    MiddleCloseIsSearchMiddleClose();
  }

  lemma TailIsSearchTail()
    ensures Tail == Search.Tail
  {
  }

  /** The template filled in. */
  function Text(keyword: string, model: string): string {
    Head + keyword + Middle + model + Tail
  }

  /** For every keyword and model, the filled-in template is the text of the
      search program's template. */
  lemma TextIsSearchTemplate(keyword: string, model: string)
    ensures Text(keyword, model) == Search.BuildJsonQuery(keyword, model)
  {
    HeadIsSearchHead();
    MiddleIsSearchMiddle();
    TailIsSearchTail();
  }

  /** The template's facts, read off the search program's template: both holes
      come back when the keyword holds no `"`, and the two fixed fields sit
      right after the first hole's closing piece. */
  lemma TextFacts(keyword: string, model: string)
    ensures Search.NoQuote(keyword) ==> Search.SplitQuery(Text(keyword, model)) == Some((keyword, model))
    ensures var o := |Search.Head| + |keyword| + |Search.MiddleOpen|;
      && o + |Search.WindowSizeField| <= |Text(keyword, model)|
      && Text(keyword, model)[o .. o + |Search.WindowSizeField|] == Search.WindowSizeField
    ensures var p := |Search.Head| + |keyword| + |Search.MiddleOpen| + |Search.WindowSizeField| + |Search.MiddleBeforeParams|;
      && p + |Search.ParamsField| <= |Text(keyword, model)|
      && Text(keyword, model)[p .. p + |Search.ParamsField|] == Search.ParamsField
  {
    TextIsSearchTemplate(keyword, model);
    Search.TemplateFixesWindowAndParams(keyword, model);
    if Search.NoQuote(keyword) {
      Search.SplitBuildJsonQuery(keyword, model);
    }
  }

  datatype StringLTRQueryBuilder = StringLTRQueryBuilder(keyword: string, model: string)

  /** Keeps both inputs unchanged; nothing is validated or escaped. */
  function NewStringLTRQueryBuilder(keyword: string, model: string): (b: StringLTRQueryBuilder)
    ensures b.keyword == keyword && b.model == model
  {
    StringLTRQueryBuilder(keyword, model)
  }

  /** `Build` never fails. When the keyword holds no `"`, both inputs can be
      read back from the text; whatever the inputs, the window size is fixed
      at 1000 and the params are empty, between the two holes. */
  function Build(b: StringLTRQueryBuilder): (r: Result<string, string>)
    ensures r.Success?
    ensures Search.NoQuote(b.keyword) ==> Search.SplitQuery(r.value) == Some((b.keyword, b.model))
    ensures var o := |Search.Head| + |b.keyword| + |Search.MiddleOpen|;
      && o + |Search.WindowSizeField| <= |r.value|
      && r.value[o .. o + |Search.WindowSizeField|] == Search.WindowSizeField
    ensures var p := |Search.Head| + |b.keyword| + |Search.MiddleOpen| + |Search.WindowSizeField| + |Search.MiddleBeforeParams|;
      && p + |Search.ParamsField| <= |r.value|
      && r.value[p .. p + |Search.ParamsField|] == Search.ParamsField
  {
    TextFacts(b.keyword, b.model);
    Success(Text(b.keyword, b.model))
  }

  /** The builder and the search program's template write the same text for
      the same keyword and model. */
  lemma BuildIsSearchTemplate(keyword: string, model: string)
    ensures Build(NewStringLTRQueryBuilder(keyword, model)) == Success(Search.BuildJsonQuery(keyword, model))
  {
    TextIsSearchTemplate(keyword, model);
  }
}
